=== FILE: README.md ===
# Simple RPG rules engine in Dafny

A model of the rules of a small turn-based RPG. It covers:

- the Python game in `test_game_python/simple_rpg/`: the combatant record and its clamped mutators, the damage resolver with critical hits, one battle turn as a state machine over typed replies and random draws, the battle loop, the choice rules of the spell, item, save and load menus, the bounded battle log, and the save-slot store;
- the pure text helpers of the TypeScript front-end `TestGameTs/SimpleRpg/rpg.ts`: keyword colouring, choice icons, the byte-order-mark strip and the choice-number check.

Modules follow the source files:

| file | module | source |
|---|---|---|
| `basics.dfy` | `Basics` | shared: `Option`, decimal rendering `str(n)` and its inverse, substring test |
| `character.dfy` | `Characters` | `character.py` |
| `combat.dfy` | `Combat` | `combat.py` |
| `battle_log.dfy` | `BattleLogs` | `battle_log.py` |
| `save_system.dfy` | `SaveSystem` | `save_system.py` |
| `ui.dfy` | `Ui` | `ui.py` |
| `battle.dfy` | `Battle` | `battle.py` |
| `rpg_text.dfy` | `RpgText` | `rpg.ts` |

Modelling choices:

- **Immutable values.** Every mutator returns the updated value instead of changing an object in place.
- **Half-unit damage.** The game only uses the multipliers 1.0, 1.5 and 2.0, and defense counts ×0.5. So damage is computed exactly in half-points: `max(1, (halves·attack − defense) div 2)` with `halves` ∈ {2, 3, 4}. A critical hit is `(3·d) div 2`.
- **Random draws as inputs.** Every `random.random()` is a `real` input:
  - a critical hit is a draw below the double nearest 0.15, which is what `random.random() < 0.15` compares with;
  - fleeing works on a draw below 0.5;
  - the enemy makes a plain attack on a draw strictly below the double nearest 0.7. `random.choices` with weights 0.7/0.3 bisects the draw to the right against the cumulative weights, so a draw equal to that double is a strong attack.
- **Replies as inputs.** Each line typed at a Rich prompt is a `Reply`:
  - `Blank` is an exactly empty line. Rich tests the raw line against "" before stripping it, so only this line gives the prompt's default.
  - `Typed(text)` is any other line, with surrounding whitespace stripped. A line of only spaces is `Typed("")`, which no choice list holds, so the prompt asks again.
  - A prompt re-asks on an answer outside its choices.
  - One battle turn consumes replies one prompt at a time (`Battle.PlayerPhase`).
- **The save directory** is a map from slot number to either a readable record or an unreadable file. The timestamp and the outcome of each file-system call are inputs.

## Model

| member | source | states |
|---|---|---|
| Basics.NatToString | test_game_python/simple_rpg/ui.py:240-244 | `str(i)` of a slot number is a non-empty run of decimal digits, with no leading zero unless the number is 0 |
| Basics.DigitsValueOfNatToString | test_game_python/simple_rpg/ui.py:240-244 | `int(str(n)) == n`: a slot number offered as `str(i)` reads back as `i` |
| Basics.NatToStringInjective | test_game_python/simple_rpg/ui.py:240-244 | distinct slot numbers are offered as distinct strings |
| Characters.NewCharacter | test_game_python/simple_rpg/character.py:7-15 | the stats are stored as given; the inventory is exactly {回復薬: 3, 魔法の水: 2} |
| Characters.IsAlive | test_game_python/simple_rpg/character.py:17-19 | alive means hp is positive; within the stat bounds, that hp has not fallen to 0 |
| Characters.TakeDamage | test_game_python/simple_rpg/character.py:21-23 | hp becomes max(0, hp − damage): never negative, never above hp for a non-negative hit; only hp changes |
| Characters.Heal | test_game_python/simple_rpg/character.py:25-27 | hp becomes min(max_hp, hp + amount): never above max_hp, never lowered from a valid hp; only hp changes |
| Characters.UseMp | test_game_python/simple_rpg/character.py:29-34 | succeeds iff mp ≥ amount; on success mp drops by exactly amount; on failure nothing changes |
| Characters.RestoreMp | test_game_python/simple_rpg/character.py:36-38 | mp becomes min(max_mp, mp + amount); only mp changes |
| Characters.AliveAfterDamage | test_game_python/simple_rpg/character.py:17-23 | after a hit the character is alive iff the hit was below its hp |
| Characters.MutatorsPreserveValid | test_game_python/simple_rpg/character.py:21-38 | with non-negative amounts all four mutators keep 0 ≤ hp ≤ max_hp and 0 ≤ mp ≤ max_mp |
| Characters.UseMpThenRestore | test_game_python/simple_rpg/character.py:29-38 | a successful spend is undone by restoring the same amount |
| Combat.IsCritical | test_game_python/simple_rpg/combat.py:31 | a critical needs a draw below 0.15, and every draw up to 1351079888211148 · 2^-53 (the largest double below the one nearest 0.15, hence the largest critical `random()` output) is critical |
| Combat.Mitigated | test_game_python/simple_rpg/combat.py:26-28 | damage is at least 1, and is the floor of attack·m − defense·0.5 whenever that is at least 1 |
| Combat.CalculateDamage | test_game_python/simple_rpg/combat.py:24-35 | always at least 1; without a critical it is the mitigated damage; with one it is floor(1.5 × mitigated) |
| Combat.CriticalAtLeastNormal | test_game_python/simple_rpg/combat.py:31-33 | a critical hit never deals less than the same hit without it |
| Combat.DamageMonotoneInAttack | test_game_python/simple_rpg/combat.py:26-33 | more attack never lowers the damage, with or without a critical |
| Combat.DamageAntitoneInDefense | test_game_python/simple_rpg/combat.py:26-33 | more defense never raises the damage, with or without a critical |
| Combat.HeroHitsForTwenty | test_game_python/simple_rpg/combat.py:26-28 | attack 25 against defense 10 at ×1.0 deals 20 |
| BattleLogs.NewLog | test_game_python/simple_rpg/battle_log.py:10-11 | a new log is empty and has the requested bound |
| BattleLogs.Add | test_game_python/simple_rpg/battle_log.py:13-15 | the bound holds; the new entry is the newest; below the bound it is appended; at the bound exactly the oldest entry is dropped |
| BattleLogs.AddPlain | test_game_python/simple_rpg/battle_log.py:13-15 | `add(message)` appends (message, "white") as the newest entry under the same rule: nothing dropped below the bound, exactly the oldest dropped when full, nothing kept at maxlen 0 |
| BattleLogs.AddAllKeepsNewest | test_game_python/simple_rpg/battle_log.py:11-15 | after any run of adds the log is the newest max_lines of the old entries followed by the added ones, in order |
| BattleLogs.FreshLogAfterAdds | test_game_python/simple_rpg/battle_log.py:10-15 | n adds to a fresh log leave exactly the last min(n, max_lines) entries |
| BattleLogs.AddAll | test_game_python/simple_rpg/battle_log.py:13-15 | a run of adds keeps the bound, and a log within its bound stays within it; the contents are stated by AddAllKeepsNewest |
| BattleLogs.FormatEntry | test_game_python/simple_rpg/battle_log.py:21 | a panel line is the message whole between the `[style]• ` tag and the `[/style]` tag, seven characters plus the message and twice the style long |
| BattleLogs.RenderLines | test_game_python/simple_rpg/battle_log.py:19-21 | one `[style]• message[/style]` line per entry, in log order |
| BattleLogs.SplitJoin | test_game_python/simple_rpg/battle_log.py:23 | splitting the newline-joined lines gives the lines back when none holds a newline |
| BattleLogs.JoinEnds | test_game_python/simple_rpg/battle_log.py:23 | `"\n".join(lines)` starts with the first line and ends with the last |
| BattleLogs.RenderBody | test_game_python/simple_rpg/battle_log.py:17-23 | an empty log shows the placeholder; otherwise the panel text starts with the oldest kept entry's line and ends with the newest's |
| BattleLogs.RenderOneLinePerEntry | test_game_python/simple_rpg/battle_log.py:17-23 | the panel text has one line per entry in order; an empty log shows the placeholder |
| SaveSystem.SaveGame | test_game_python/simple_rpg/save_system.py:17-60 | True iff the write succeeded; then the slot holds version "1.0", the date and all thirteen fields; a failure before opening changes nothing; other slots are untouched |
| SaveSystem.LoadGame | test_game_python/simple_rpg/save_system.py:62-85 | the player record iff the slot exists and is readable; None otherwise |
| SaveSystem.GetSaveInfo | test_game_python/simple_rpg/save_system.py:87-119 | present iff the slot is readable, tagged with its slot number and save date |
| SaveSystem.ListSaves | test_game_python/simple_rpg/save_system.py:121-135 | exactly max_slots entries (none for a negative count); entry i is the info of slot i + 1 |
| SaveSystem.DeleteSave | test_game_python/simple_rpg/save_system.py:137-157 | True iff the slot existed and the removal succeeded; then exactly that slot is gone; otherwise nothing changes |
| SaveSystem.SaveThenLoad | test_game_python/simple_rpg/save_system.py:32-81 | save then load of the same slot gives back every saved field |
| SaveSystem.OtherSlotsUntouched | test_game_python/simple_rpg/save_system.py:29-153 | saving or deleting one slot leaves what every other slot loads and summarises |
| SaveSystem.FailedSaveLoads | test_game_python/simple_rpg/save_system.py:53-60 | a failure before opening leaves the slot as it was; a failure while writing leaves nothing loadable |
| SaveSystem.DeleteThenLoad | test_game_python/simple_rpg/save_system.py:148-153 | after a successful delete the slot loads and summarises as absent |
| SaveSystem.InfoProjectsLoad | test_game_python/simple_rpg/save_system.py:97-115 | the summary is present iff the slot loads, and carries the loaded name, level and battle counts |
| SaveSystem.SaveThenInfo | test_game_python/simple_rpg/save_system.py:32-50 | the summary of a freshly saved slot is exactly the six fields of the save |
| Ui.Accept | test_game_python/simple_rpg/ui.py:90-94 | a typed answer is accepted iff it is one of the choices and is returned unchanged; a blank line gives the default |
| Ui.ShowActionMenu | test_game_python/simple_rpg/ui.py:77-96 | a typed line is returned as typed exactly when it is "1" to "4" and asked again otherwise; an empty line attacks |
| Ui.AffordableNumbers | test_game_python/simple_rpg/ui.py:113-119 | holds exactly the numbers of the spells whose cost the mp covers |
| Ui.MagicChoices | test_game_python/simple_rpg/ui.py:113 | "0" is always offered first |
| Ui.ShowMagicMenu | test_game_python/simple_rpg/ui.py:99-131 | "0" and only "0" goes back; a returned spell is a table row whose cost ≤ mp, picked by its number; anything else re-asks |
| Ui.SpellOfferedIffAffordable | test_game_python/simple_rpg/ui.py:113-131 | spell k is offered, and picked by typing its number, iff mp ≥ its cost |
| Ui.HeldNumbers | test_game_python/simple_rpg/ui.py:147-152 | holds exactly the numbers of the items with a positive count, a missing item counting 0 |
| Ui.ItemChoices | test_game_python/simple_rpg/ui.py:147 | "0" is always offered first |
| Ui.ShowItemMenu | test_game_python/simple_rpg/ui.py:134-172 | with nothing usable it returns None without prompting; otherwise "0" goes back, an empty line or an unoffered answer asks again, and typing item k's number returns that item, which is held |
| Ui.ItemOfferedIffHeld | test_game_python/simple_rpg/ui.py:147-172 | the menu prompts iff some item has a positive count; item k is picked by its number iff one is held |
| Ui.SlotChoices | test_game_python/simple_rpg/ui.py:242 | the choices are the decimal strings of 0..max_slots |
| Ui.ShowSaveMenu | test_game_python/simple_rpg/ui.py:240-246 | a blank line gives slot 1; a typed answer is accepted only as a number in 0..max_slots |
| Ui.SaveMenuAcceptsRange | test_game_python/simple_rpg/ui.py:240-244 | typing n selects slot n iff n ≤ max_slots; otherwise the prompt asks again |
| Ui.LoadableSlots | test_game_python/simple_rpg/ui.py:274-287 | slot i is listed iff its entry of the listing is present |
| Ui.LoadMenuSlots | test_game_python/simple_rpg/ui.py:274-287 | slot i is offered iff 1 ≤ i ≤ max_slots and its summary is present |
| Ui.ShowLoadMenu | test_game_python/simple_rpg/ui.py:249-304 | returns 0 without prompting when no slot is loadable; "0" cancels; otherwise an empty line gives 1 if slot 1 is loadable and 0 if not, a typed slot is returned only when it is in range, loadable and typed as its number, and a typed answer yields 0 only when it is "0" or nothing is loadable |
| Ui.LoadMenuOffersLoadable | test_game_python/simple_rpg/ui.py:274-302 | for every store, typing slot k loads it iff k ≤ max_slots and its summary is present |
| Battle.PlayerAttack | test_game_python/simple_rpg/battle.py:54-63 | the enemy takes exactly the resolver's damage at ×1.0; the player is unchanged |
| Battle.CastSpell | test_game_python/simple_rpg/battle.py:80-94 | ヒール heals the caster 30 and spares the enemy; another spell damages the enemy with its multiplier and spares the caster |
| Battle.UseItem | test_game_python/simple_rpg/battle.py:110-122 | 回復薬 heals 50 and 魔法の水 restores 20 mp, each taking one of its own count; the enemy is untouched |
| Battle.UseItemKeepsSound | test_game_python/simple_rpg/battle.py:110-122 | using a held item keeps the vitals, the log bound and non-negative counts |
| Battle.ActionStep | test_game_python/simple_rpg/battle.py:51-137 | each action changes only the enemy's hp, never upwards, and the player's gauges and items; an escape changes neither combatant |
| Battle.MagicStep | test_game_python/simple_rpg/battle.py:65-97 | the same frame condition for the spell prompt |
| Battle.ItemStep | test_game_python/simple_rpg/battle.py:99-125 | the same frame condition for the item prompt |
| Battle.Respond | test_game_python/simple_rpg/battle.py:51-137 | the same frame condition for whichever prompt is active |
| Battle.PlayerPhase | test_game_python/simple_rpg/battle.py:51-137 | consumes a prefix of the replies; an escape leaves both combatants as they were; an action keeps every fixed stat, does not raise the enemy's hp and keeps the vitals, the log bound and non-negative counts |
| Battle.EnemyMultiplier | test_game_python/simple_rpg/battle.py:149-161 | the plain attack (×1.0) is chosen iff the draw is strictly below the double nearest 0.7 (the first cumulative weight), otherwise the strong one (×1.5) |
| Battle.EnemyPhase | test_game_python/simple_rpg/battle.py:149-168 | the player takes the resolver's damage for the chosen attack; the enemy is unchanged |
| Battle.BattleTurn | test_game_python/simple_rpg/battle.py:27-175 | victory only with the enemy down; defeat only with the enemy up and the player down; continue only with both up; an escape changes neither combatant |
| Battle.RunBattle | test_game_python/simple_rpg/battle.py:199-229 | the loop ends only on victory (enemy down), defeat (player down) or escape, after at least one turn and at most one turn per draw; with no turn left to play it waits unchanged |
| Battle.Opening | test_game_python/simple_rpg/battle.py:183-186 | the fighters are exactly `Character("勇者", 100, 100, 50, 50, 25, 10)` and `Character("ゴブリン", 80, 80, 0, 0, 20, 5)`, and the opening state is sound |
| Battle.OpeningAnnounces | test_game_python/simple_rpg/battle.py:186-194 | the opening log is a fresh ten-line log after one `add` of "ゴブリン が現れた!" in red |
| Battle.StartBattle | test_game_python/simple_rpg/battle.py:178-229 | the battle is the turn loop run from the opening fight; it ends only on victory (goblin down), defeat (hero down) or escape, keeps the invariant throughout, and with no reply typed is still waiting at the opening |
| Battle.AttackUsesTurn | test_game_python/simple_rpg/battle.py:54-63 | typing "1" lowers the enemy's hp by the resolver's damage and uses up the turn |
| Battle.MagicBackChangesNothing | test_game_python/simple_rpg/battle.py:67-74 | going into the spell menu and back re-prompts with nothing changed and no enemy turn |
| Battle.ItemBackChangesNothing | test_game_python/simple_rpg/battle.py:101-108 | going into the item menu and back, or finding nothing usable, re-prompts with nothing changed |
| Battle.RefusedActionChangesNothing | test_game_python/simple_rpg/ui.py:90-94 | an answer the action prompt refuses is asked again with nothing changed |
| Battle.OfferedSpellIsPaid | test_game_python/simple_rpg/battle.py:76-78 | a spell the menu hands over can always be paid for |
| Battle.MagicStepCasts | test_game_python/simple_rpg/battle.py:76-97 | a chosen spell is paid for and cast |
| Battle.CastStep | test_game_python/simple_rpg/battle.py:65-97 | casting an affordable spell spends its cost, applies it and ends the player's half |
| Battle.HealSpellEffect | test_game_python/simple_rpg/battle.py:80-85 | ヒール spends 15 mp, heals 30 and leaves the enemy unchanged |
| Battle.FireEffect | test_game_python/simple_rpg/battle.py:86-94 | ファイア spends 10 mp and damages the enemy at ×1.5 |
| Battle.ThunderEffect | test_game_python/simple_rpg/battle.py:86-94 | サンダー spends 20 mp and damages the enemy at ×2.0 |
| Battle.ItemUseStep | test_game_python/simple_rpg/battle.py:99-125 | picking a held item by its number uses it and ends the player's half |
| Battle.PotionEffect | test_game_python/simple_rpg/battle.py:111-116 | typing 3 then 1 with a 回復薬 held heals 50, takes one 回復薬, and changes no other count, the mp or the enemy |
| Battle.EtherEffect | test_game_python/simple_rpg/battle.py:117-122 | typing 3 then 2 with a 魔法の水 held restores 20 mp, takes one 魔法の水, and changes no other count, the hp or the enemy |
| Battle.FleeOutcomes | test_game_python/simple_rpg/battle.py:127-137 | escape iff the draw is below 0.5, with both combatants unchanged; otherwise the turn is used and the enemy attacks |
| Battle.FleeStep | test_game_python/simple_rpg/battle.py:127-137 | typing 4 escapes on a roll below 0.5 and otherwise spends the turn, adding only a log line either way |
| Battle.TurnOutcome | test_game_python/simple_rpg/battle.py:139-175 | an enemy at 0 hp after the player's action means victory with no enemy turn; otherwise defeat iff the player ends at 0 hp, else continue |
| Battle.LoopContinues | test_game_python/simple_rpg/battle.py:199-229 | a continuing turn hands its state and the remaining replies to the next turn, and the battle then ends with that rest's outcome and final state, one turn later; any other outcome ends the battle at once with that turn's state; a turn that cannot be played leaves the battle waiting unchanged |
| Battle.RunBattleKeepsSound | test_game_python/simple_rpg/battle.py:199-229 | the vitals, the log bound and non-negative counts hold after every turn of a battle |
| Battle.HeroAttacksGoblin | test_game_python/simple_rpg/battle.py:183-184 | in the opening fight the hero's attack takes the goblin from 80 to 58, or to 47 on a critical |
| RpgText.FirstMatch | TestGameTs/SimpleRpg/rpg.ts:98-118 | the first rule whose keywords occur wins: it matches and no earlier rule does |
| RpgText.ColorizeFollowsRules | TestGameTs/SimpleRpg/rpg.ts:96-121 | `colorizeText` equals the priority-table colouring: first matching rule's colour and icon, the text, the reset code; else three spaces and the text |
| RpgText.ColorizeText | TestGameTs/SimpleRpg/rpg.ts:96-121 | the original line survives verbatim in the coloured text: just before the reset code, or after the three-space indent |
| RpgText.StatusLineWins | TestGameTs/SimpleRpg/rpg.ts:98-100 | any line mentioning "HP:" gets the status colour and icon, whatever other keywords it contains |
| RpgText.IconFollowsRules | TestGameTs/SimpleRpg/rpg.ts:157-169 | `getChoiceIcon` equals the icon of the first matching keyword group, else ➤ |
| RpgText.GetChoiceIcon | TestGameTs/SimpleRpg/rpg.ts:157-169 | a choice containing "戦う" always gets ⚔️, and ➤ is shown only when the choice contains no keyword of any group |
| RpgText.StripBom | TestGameTs/SimpleRpg/rpg.ts:45-47 | one leading U+FEFF is removed; any other text is returned unchanged |
| RpgText.StripBomInvertsPrepend | TestGameTs/SimpleRpg/rpg.ts:45-47 | exactly one mark is stripped: a prepended mark comes off, a second one stays |
| RpgText.ChoiceIndex | TestGameTs/SimpleRpg/rpg.ts:141-143 | an answer n is accepted iff 1 ≤ n ≤ the number of choices, as index n − 1; NaN is never accepted |
| RpgText.ShowChoices | TestGameTs/SimpleRpg/rpg.ts:138-154 | the menu is shown again until an answer is accepted; the chosen index is in range and every earlier answer was refused |

## Left out

- Rendering is left out: all Rich output (panels, layouts, tables, `animate_attack`, `show_damage_effect`, `show_level_up`, `create_character_panel`), the HP/EXP bar widths and the win-rate percentages. It changes no game state, but `create_character_panel` can raise; see the Battle.BattleTurn line below.
- Battle.BattleTurn and Battle.StartBattle: with `character.py` as written, every turn of `start_battle` raises AttributeError before the first prompt. `battle.py:36` draws the hero's panel, and `ui.py:55-61` reads `level`, `exp` and `exp_to_next`, which the `Character` constructor (`character.py:7-15`) never sets. The model plays the battle as if the hero carried those fields, as `ui.py:55-61` and `main.py:44` expect; the crash itself is not modelled.
- `time.sleep` is left out, because it does not affect state.
- Nothing samples `random`. Each draw is an input, and the probabilities themselves are not modelled.
- `main.py` is not part of this model. It is an interactive loop whose calls do not match the `Character` constructor and `start_battle` signatures.
- Leveling, experience gain, enemy generation and updates to the battle counters are not modelled. No part of the game's code implements them. `level`, `exp`, `exp_to_next`, `total_battles` and `total_victories` are carried only as saved data.
- JSON encoding, `Path`, `mkdir`, `datetime.now` and `format_datetime` are left out. The store is a slot map, the date is an opaque string, and each write or unlink outcome is an input.
- SaveSystem.DeleteSave: a failure of the existence check is folded into the same `unlinkOk` flag as a failure of the removal.
- SaveSystem.InfoProjectsLoad: slot files are assumed to be written by `save_game` or unreadable. A parseable file whose `player` object lacks a field the summary reads (or that has no `save_date`) would load in `load_game` and summarise as None in `get_save_info`; `SlotFile` has no case for it.
- The default arguments `slot=1` and `max_slots=3`: every modelled call passes its slot and slot count explicitly, so a call that relies on the default is the same call with 1 or 3 written out.
- `create_player_from_save` is not modelled, because its body is empty.
- SaveSystem.SaveGame: the model takes the thirteen fields as a record. It does not model the AttributeError the real call raises (and reports as False) when the player object lacks `level` or the counters.
- The inkjs `Story`, `readline`, `fs`, the banner and the ending screen are left out as external libraries and I/O. `parseInt` and `trim` are inputs:
  - ChoiceIndex takes the already parsed number, with NaN as `None`;
  - ColorizeText takes the already trimmed line.
- Combat.CalculateDamage: only the three multipliers the game uses are modelled exactly. They are given in half-units. Float rounding for arbitrary multipliers is not modelled.
- Combat.Mitigated: `combat.py` computes in doubles, which round once attack or defense passes about 2^52 and overflow past about 1.8e308. The model's integers are exact at every size; the game's stats stay far below either bound.
- BattleLogs.NewLog: `BattleLog(max_lines)` raises ValueError for a negative `max_lines`. NewLog takes a `nat`, so that error path is not modelled.
- Ui.ShowSaveMenu: Rich's conversion of a typed answer is modelled as a string check against the offered choices. IntPrompt converts to `int` first, so an answer such as "01" is refused either way.
- Ui.Accept: the raw line is not modelled. A reply is already classified as `Blank` (exactly empty, so the default) or `Typed` (stripped; a whitespace-only line is `Typed("")` and is refused).
- Battle.BattleTurn: the `Blocked` and `Suspended` results only mean the model ran out of replies or draws. The game would wait for more input.
- Battle.RunBattle: the turn counter of `start_battle` is only reported as a count of turns played.
- Strings: TypeScript strings are UTF-16 code units and the model's strings are code points. All keywords and U+FEFF consist only of non-surrogate UTF-16 units, one per code point, so the substring tests and the one-character strip agree.
- Two behaviours of the code are modelled as written:
  - the ヒール spell ends the player's half of the turn like any other action, so the enemy then acts;
  - a victory in `battle.py` changes no counter and awards no experience. The victory panel only displays the 100 exp.

=== FILE: basics.dfy ===
/** Small shared vocabulary: an optional value, the decimal rendering Python's
    f-strings give a non-negative int, and the substring test behind Python's
    `in` on strings and TypeScript's `String.prototype.includes`. */
module Basics {

  /** Python's `None` or a value. */
  datatype Option<+T> = None | Some(value: T)

  predicate IsDigit(c: char) {
    '0' <= c <= '9'
  }

  predicate IsDigits(s: string) {
    forall i :: 0 <= i < |s| ==> IsDigit(s[i])
  }

  function DigitChar(d: nat): (c: char)
    requires d < 10
    ensures IsDigit(c)
    ensures c as int - '0' as int == d
  {
    (('0' as int) + d) as char
  }

  function DigitValue(c: char): (d: nat)
    requires IsDigit(c)
    ensures d < 10
  {
    c as int - '0' as int
  }

  /** The text `str(n)` gives for a non-negative int: decimal, no sign, no
      leading zero. */
  function NatToString(n: nat): (s: string)
    ensures |s| >= 1 && IsDigits(s)
    ensures n > 0 ==> s[0] != '0'
    decreases n
  {
    if n < 10 then [DigitChar(n)] else NatToString(n / 10) + [DigitChar(n % 10)]
  }

  /** The value of a string of decimal digits, as `int(s)` reads it. */
  function DigitsValue(s: string): nat
    requires IsDigits(s)
    decreases |s|
  {
    if |s| == 0 then 0 else 10 * DigitsValue(s[..|s| - 1]) + DigitValue(s[|s| - 1])
  }

  /** Reading back a rendered number gives the number. */
  lemma {:induction false} DigitsValueOfNatToString(n: nat)
    ensures DigitsValue(NatToString(n)) == n
    decreases n
  {
    var s := NatToString(n);
    if n >= 10 {
      DigitsValueOfNatToString(n / 10);
      assert s[..|s| - 1] == NatToString(n / 10);
    }
  }

  /** Distinct numbers render to distinct strings, so `int(str(n)) == n`
      identifies a menu choice with its number. */
  lemma NatToStringInjective(a: nat, b: nat)
    ensures NatToString(a) == NatToString(b) ==> a == b
  {
    DigitsValueOfNatToString(a);
    DigitsValueOfNatToString(b);
  }

  /** `kw` occurs in `text` at some offset. */
  predicate Contains(text: string, kw: string) {
    exists i :: 0 <= i <= |text| && kw <= text[i..]
  }

  /** An occurrence of `kw` inside a longer text is witnessed by its offset. */
  lemma ContainsAt(text: string, kw: string, i: nat)
    requires i + |kw| <= |text| && text[i..i + |kw|] == kw
    ensures Contains(text, kw)
  {
    assert kw <= text[i..];
  }
}

=== FILE: battle.dfy ===
/** One battle of `battle.py` as a state machine.

    `battle_turn` loops on the action menu until the player does something
    that uses up the turn, then lets the enemy act unless it has fallen.
    Here the lines the player types are a sequence of replies, consumed one
    per prompt, and the three `random.random()` draws a turn can make are a
    `Draws` record. When the replies run out mid-turn the game is waiting
    for input (`Blocked`); when the draws run out the model stops between
    turns (`Suspended`). */
module Battle {
  import opened Basics
  import opened Characters
  import opened Combat
  import opened BattleLogs
  import opened Ui

  /** `random.random() < 0.5` escapes. */
  const FleeChance: real := 0.5
  /** `random.choices(["attack", "strong_attack"], weights=[0.7, 0.3])`
      bisects its draw (times the total 1.0) to the right against the
      cumulative weights, whose first entry is the double nearest 0.7, just
      below 0.7. So it picks the plain attack exactly when the draw is
      strictly below that double; a draw equal to it is a strong attack. */
  const NormalAttackWeight: real := 0.6999999999999999555910790149937383830547332763671875

  const HealSpellAmount: int := 30
  const PotionAmount: int := 50
  const EtherAmount: int := 20

  const CritText: string := " (クリティカル!)"

  /** The value `battle_turn` returns. */
  datatype Outcome = Continue | Victory | Defeat | Escaped

  /** Everything a turn changes: both combatants and the log. */
  datatype Fighters = Fighters(player: Character, enemy: Character, log: BattleLog)

  /** The draws of one turn: the player's roll (critical hit of an attack or
      damage spell, or the flee roll), the enemy's action choice and its
      critical-hit roll. */
  datatype Draws = Draws(player: real, enemyAction: real, enemyCrit: real)

  /** Which prompt the next reply answers. */
  datatype Prompt = ActionPrompt | MagicPrompt | ItemPrompt

  /** The player's half of a turn. */
  datatype PlayerResult =
    | Waiting
    | Fled(after: Fighters, rest: seq<Reply>)
    | Acted(after: Fighters, rest: seq<Reply>)

  datatype TurnResult = Blocked | Turn(outcome: Outcome, after: Fighters, rest: seq<Reply>)

  /** Stats no action of a battle changes. */
  predicate SameBuild(a: Character, b: Character) {
    a.name == b.name && a.maxHp == b.maxHp && a.maxMp == b.maxMp &&
    a.attack == b.attack && a.defense == b.defense
  }

  predicate ItemsNonNegative(items: Items) {
    forall k :: k in items ==> items[k] >= 0
  }

  /** What stays true for the whole battle. */
  predicate Sound(f: Fighters) {
    Characters.Valid(f.player) && Characters.Valid(f.enemy) && BattleLogs.Valid(f.log) &&
    ItemsNonNegative(f.player.items)
  }

  function CritSuffix(critical: bool): string {
    if critical then CritText else ""
  }

  function DamageLine(attacker: string, verb: string, target: string, damage: nat, critical: bool): string {
    attacker + verb + target + " に " + NatToString(damage) + " ダメージ" + CritSuffix(critical)
  }

  /** Action 1: a plain attack on the enemy. */
  function PlayerAttack(f: Fighters, critical: bool): (g: Fighters)
    ensures g.player == f.player
    ensures g.enemy == TakeDamage(f.enemy, CalculateDamage(f.player, f.enemy, NormalHit, critical))
  {
    var dmg := CalculateDamage(f.player, f.enemy, NormalHit, critical);
    f.(enemy := TakeDamage(f.enemy, dmg),
       log := Add(f.log, DamageLine(f.player.name, " の攻撃! ", f.enemy.name, dmg, critical), "cyan"))
  }

  /** Action 2 once the mp is paid: ヒール heals the caster, any other spell
      hits the enemy with the spell's multiplier. */
  function CastSpell(f: Fighters, spell: Spell, critical: bool): (g: Fighters)
    ensures spell.name == HealSpellName ==> g.player == Heal(f.player, HealSpellAmount) && g.enemy == f.enemy
    ensures spell.name != HealSpellName ==>
              g.player == f.player &&
              g.enemy == TakeDamage(f.enemy, CalculateDamage(f.player, f.enemy, spell.halves, critical))
  {
    if spell.name == HealSpellName then
      f.(player := Heal(f.player, HealSpellAmount),
         log := Add(f.log, f.player.name + " は " + spell.name + " を使用! HP +30", "green"))
    else
      var dmg := CalculateDamage(f.player, f.enemy, spell.halves, critical);
      f.(enemy := TakeDamage(f.enemy, dmg),
         log := Add(f.log, DamageLine(f.player.name, " の " + spell.name + "! ", f.enemy.name, dmg, critical),
                    "magenta"))
  }

  /** Action 3 once an item is chosen: 回復薬 heals 50, 魔法の水 restores 20
      mp, and the item's count drops by one. */
  function UseItem(f: Fighters, item: string): (g: Fighters)
    ensures g.enemy == f.enemy
    ensures item == Potion ==>
              g.player == Heal(f.player, PotionAmount).(items := f.player.items[Potion := Count(f.player.items, Potion) - 1])
    ensures item == Ether ==>
              g.player == RestoreMp(f.player, EtherAmount).(items := f.player.items[Ether := Count(f.player.items, Ether) - 1])
    ensures item != Potion && item != Ether ==> g == f
  {
    var p := f.player;
    if item == Potion then
      var healed := Heal(p, PotionAmount);
      f.(player := healed.(items := p.items[Potion := Count(p.items, Potion) - 1]),
         log := Add(f.log, p.name + " は " + item + " を使用! HP +50", "green"))
    else if item == Ether then
      var restored := RestoreMp(p, EtherAmount);
      f.(player := restored.(items := p.items[Ether := Count(p.items, Ether) - 1]),
         log := Add(f.log, p.name + " は " + item + " を使用! MP +20", "blue"))
    else f
  }

  /** What one reply does during the player's half of a turn: move to a
      prompt with nothing changed, escape, or act and use up the turn. */
  datatype Step = Next(at: Prompt) | Escape(after: Fighters) | Act(after: Fighters)

  /** What holds of every escape or action, relative to the state before it. */
  predicate Effect(f: Fighters, s: Step) {
    !s.Next? ==>
      && SameBuild(s.after.player, f.player)
      && s.after.enemy == f.enemy.(hp := s.after.enemy.hp)
      && (f.enemy.hp >= 0 ==> s.after.enemy.hp <= f.enemy.hp)
      && (s.Escape? ==> s.after.player == f.player && s.after.enemy == f.enemy)
      && (Sound(f) ==> Sound(s.after))
  }

  /** The action prompt: 1 attacks, 2 opens the spells, 3 opens the items
      (or, with nothing usable, comes straight back), 4 tries to flee. */
  function ActionStep(f: Fighters, reply: Reply, draw: real): (s: Step)
    ensures Effect(f, s)
  {
    match ShowActionMenu(reply)
    case None => Next(ActionPrompt)
    case Some(a) =>
      if a == "1" then
        AttackEffect(f, IsCritical(draw));
        Act(PlayerAttack(f, IsCritical(draw)))
      else if a == "2" then Next(MagicPrompt)
      else if a == "3" then Next(if AnyItemUsable(f.player.items) then ItemPrompt else ActionPrompt)
      else if draw < FleeChance then
        LogOnlyEffect(f, "戦闘から逃げ出した!", "yellow");
        Escape(f.(log := Add(f.log, "戦闘から逃げ出した!", "yellow")))
      else
        LogOnlyEffect(f, "逃げることに失敗した...", "red");
        Act(f.(log := Add(f.log, "逃げることに失敗した...", "red")))
  }

  lemma AttackEffect(f: Fighters, critical: bool)
    ensures Effect(f, Act(PlayerAttack(f, critical)))
  {
    var g := PlayerAttack(f, critical);
    if Sound(f) {
      MutatorsPreserveValid(f.enemy, CalculateDamage(f.player, f.enemy, NormalHit, critical));
    }
  }

  /** A turn that only writes to the log is an escape or an action with no
      effect on either combatant. */
  lemma LogOnlyEffect(f: Fighters, message: string, style: string)
    ensures Effect(f, Escape(f.(log := Add(f.log, message, style))))
    ensures Effect(f, Act(f.(log := Add(f.log, message, style))))
  {
    var g := f.(log := Add(f.log, message, style));
    assert g.player == f.player && g.enemy == f.enemy && BattleLogs.Valid(g.log);
  }

  /** The spell prompt: back to the actions on "0", or pay and cast; a spell
      the mp cannot pay for returns to the actions with nothing changed. */
  function MagicStep(f: Fighters, reply: Reply, draw: real): (s: Step)
    ensures Effect(f, s)
  {
    match ShowMagicMenu(f.player.mp, reply)
    case Retry => Next(MagicPrompt)
    case Back => Next(ActionPrompt)
    case Chosen(spell) =>
      var paid := UseMp(f.player, spell.cost);
      if paid.0 then
        assert Characters.Valid(f.player) ==> Characters.Valid(paid.1);
        Act(CastSpell(f.(player := paid.1), spell, IsCritical(draw)))
      else Next(ActionPrompt)
  }

  /** The item prompt: back to the actions on "0", or use the chosen item. */
  function ItemStep(f: Fighters, reply: Reply): (s: Step)
    ensures Effect(f, s)
  {
    match ShowItemMenu(f.player.items, reply)
    case Retry => Next(ItemPrompt)
    case Back => Next(ActionPrompt)
    case Chosen(item) =>
      UseItemKeepsSound(f, item);
      Act(UseItem(f, item))
  }

  lemma UseItemKeepsSound(f: Fighters, item: string)
    requires Count(f.player.items, item) > 0
    ensures Sound(f) ==> Sound(UseItem(f, item))
  {
    if Sound(f) && (item == Potion || item == Ether) {
      var g := UseItem(f, item);
      var m := f.player.items[item := Count(f.player.items, item) - 1];
      assert g.player.items == m;
      assert ItemsNonNegative(m) by {
        forall k | k in m
          ensures m[k] >= 0
        {
          if k != item {
            assert m[k] == f.player.items[k];
          }
        }
      }
      MutatorsPreserveValid(f.player, PotionAmount);
      MutatorsPreserveValid(f.player, EtherAmount);
    }
  }

  function Respond(f: Fighters, at: Prompt, reply: Reply, draw: real): (s: Step)
    ensures Effect(f, s)
  {
    match at
    case ActionPrompt => ActionStep(f, reply, draw)
    case MagicPrompt => MagicStep(f, reply, draw)
    case ItemPrompt => ItemStep(f, reply)
  }

  /** The player's loop in `battle_turn`: one reply per prompt until an
      action uses up the turn. Going back, a refused answer and a spell the
      mp cannot pay for change nothing and return to a prompt. */
  function PlayerPhase(f: Fighters, at: Prompt, replies: seq<Reply>, draw: real): (r: PlayerResult)
    ensures !r.Waiting? ==> |r.rest| < |replies| && r.rest == replies[|replies| - |r.rest|..]
    ensures PhaseEffect(f, r)
    decreases |replies|
  {
    if |replies| == 0 then Waiting
    else
      var rest := replies[1..];
      var s := Respond(f, at, replies[0], draw);
      if s.Next? then
        var r := PlayerPhase(f, s.at, rest, draw);
        if r.Waiting? then r
        else
          TailSuffix(replies, |r.rest|);
          r
      else
        StepEnds(f, s, rest);
        if s.Escape? then Fled(s.after, rest) else Acted(s.after, rest)
  }

  /** An escape or action ends the player's half with its `Effect`. */
  lemma StepEnds(f: Fighters, s: Step, rest: seq<Reply>)
    requires Effect(f, s) && !s.Next?
    ensures s.Escape? ==> PhaseEffect(f, Fled(s.after, rest))
    ensures s.Act? ==> PhaseEffect(f, Acted(s.after, rest))
  {
  }

  /** A suffix of the tail is the suffix of the same length of the whole. */
  lemma TailSuffix(replies: seq<Reply>, n: nat)
    requires 0 < |replies| && n < |replies|
    ensures replies[1..][|replies| - 1 - n..] == replies[|replies| - n..]
  {
  }

  /** The player's half as a whole satisfies `Effect`: an escape changes
      neither combatant, an action keeps every fixed stat and lowers at most
      the enemy's hp, and soundness is kept. */
  predicate PhaseEffect(f: Fighters, r: PlayerResult) {
    match r
    case Waiting => true
    case Fled(g, _) => Effect(f, Escape(g))
    case Acted(g, _) => Effect(f, Act(g))
  }

  /** The plain attack is chosen exactly when the action draw is below the
      first cumulative weight; at that weight and above, the strong one. */
  function EnemyMultiplier(actionDraw: real): (halves: nat)
    ensures halves == NormalHit <==> actionDraw < NormalAttackWeight
    ensures halves == NormalHit || halves == StrongHit
  {
    if actionDraw < NormalAttackWeight then NormalHit else StrongHit
  }

  /** The enemy's half of `battle_turn`: a plain or a strong attack on the player. */
  function EnemyPhase(f: Fighters, draws: Draws): (g: Fighters)
    ensures g.enemy == f.enemy
    ensures g.player == TakeDamage(f.player, CalculateDamage(f.enemy, f.player, EnemyMultiplier(draws.enemyAction),
                                                            IsCritical(draws.enemyCrit)))
  {
    var halves := EnemyMultiplier(draws.enemyAction);
    var critical := IsCritical(draws.enemyCrit);
    var dmg := CalculateDamage(f.enemy, f.player, halves, critical);
    var verb := if halves == NormalHit then " の攻撃! " else " の強攻撃! ";
    f.(player := TakeDamage(f.player, dmg),
       log := Add(f.log, DamageLine(f.enemy.name, verb, f.player.name, dmg, critical), "red"))
  }

  /** `battle_turn`: the player's action, then victory if the enemy has
      fallen, else the enemy's attack and defeat if the player has fallen. */
  function BattleTurn(f: Fighters, replies: seq<Reply>, draws: Draws): (r: TurnResult)
    ensures r.Turn? && r.outcome == Victory ==> !IsAlive(r.after.enemy)
    ensures r.Turn? && r.outcome == Defeat ==> IsAlive(r.after.enemy) && !IsAlive(r.after.player)
    ensures r.Turn? && r.outcome == Continue ==> IsAlive(r.after.enemy) && IsAlive(r.after.player)
    ensures r.Turn? && r.outcome == Escaped ==> r.after.player == f.player && r.after.enemy == f.enemy
    ensures r.Turn? ==> |r.rest| < |replies| && r.rest == replies[|replies| - |r.rest|..]
    ensures r.Turn? && Sound(f) ==> Sound(r.after)
  {
    match PlayerPhase(f, ActionPrompt, replies, draws.player)
    case Waiting => Blocked
    case Fled(g, rest) => Turn(Escaped, g, rest)
    case Acted(g, rest) =>
      if !IsAlive(g.enemy) then Turn(Victory, g, rest)
      else
        var h := EnemyPhase(g, draws);
        Turn(if IsAlive(h.player) then Continue else Defeat, h, rest)
  }

  /** Where a battle stands when the model stops: over with a final outcome,
      or suspended because the replies or the draws ran out. */
  datatype BattleResult = Over(outcome: Outcome, after: Fighters, turns: nat) | Suspended(at: Fighters, turns: nat)

  /** The `while True` loop of `start_battle`: repeat on "continue", stop on
      "victory", "defeat" or "escaped". */
  function RunBattle(f: Fighters, replies: seq<Reply>, draws: seq<Draws>): (r: BattleResult)
    ensures r.Over? ==> r.outcome != Continue && 1 <= r.turns <= |draws|
    ensures r.Over? && r.outcome == Victory ==> !IsAlive(r.after.enemy)
    ensures r.Over? && r.outcome == Defeat ==> !IsAlive(r.after.player)
    ensures r.Suspended? ==> r.turns <= |draws|
    ensures |draws| == 0 ==> r == Suspended(f, 0)
    decreases |draws|
  {
    if |draws| == 0 then Suspended(f, 0)
    else
      match BattleTurn(f, replies, draws[0])
      case Blocked => Suspended(f, 0)
      case Turn(outcome, g, rest) =>
        if outcome != Continue then Over(outcome, g, 1)
        else
          match RunBattle(g, rest, draws[1..])
          case Over(o, h, n) => Over(o, h, n + 1)
          case Suspended(h, n) => Suspended(h, n + 1)
  }

  /** The fixed opening of `start_battle`: the hero, a goblin, and a ten-line
      log announcing the goblin. */
  function Opening(): (f: Fighters)
    ensures Sound(f)
    ensures f.player.attack == 25 && f.enemy.defense == 5 && f.enemy.hp == 80
    ensures f.player == NewCharacter("勇者", 100, 100, 50, 50, 25, 10)
    ensures f.enemy == NewCharacter("ゴブリン", 80, 80, 0, 0, 20, 5)
  {
    var player := NewCharacter("勇者", 100, 100, 50, 50, 25, 10);
    var enemy := NewCharacter("ゴブリン", 80, 80, 0, 0, 20, 5);
    Fighters(player, enemy, BattleLog(DefaultMaxLines, [Entry(enemy.name + " が現れた!", "red")]))
  }

  /** The opening log holds exactly the one line `add_log` writes for the
      goblin's appearance, in red. */
  lemma OpeningAnnounces()
    ensures Opening().log == Add(NewLog(DefaultMaxLines), Opening().enemy.name + " が現れた!", "red")
  {
  }

  /** `start_battle`: the opening fight, then the loop. It ends only on
      victory, defeat or escape, keeps the battle's invariant throughout,
      and with no reply typed it is still waiting at the opening. */
  function StartBattle(replies: seq<Reply>, draws: seq<Draws>): (r: BattleResult)
    ensures r.Over? ==> r.outcome != Continue && 1 <= r.turns <= |draws|
    ensures r.Over? && r.outcome == Victory ==> !IsAlive(r.after.enemy)
    ensures r.Over? && r.outcome == Defeat ==> !IsAlive(r.after.player)
    ensures Sound(match r case Over(_, g, _) => g case Suspended(g, _) => g)
    ensures |replies| == 0 ==> r == Suspended(Opening(), 0)
    ensures r == RunBattle(Opening(), replies, draws)
  {
    var f := Opening();
    RunBattleKeepsSound(f, replies, draws);
    if |replies| == 0 then
      WaitsWithoutReplies(f, draws);
      RunBattle(f, replies, draws)
    else RunBattle(f, replies, draws)
  }

  /** With no reply typed the first prompt waits, so no turn is played. */
  lemma WaitsWithoutReplies(f: Fighters, draws: seq<Draws>)
    ensures RunBattle(f, [], draws) == Suspended(f, 0)
  {
    if |draws| > 0 {
      assert PlayerPhase(f, ActionPrompt, [], draws[0].player) == Waiting;
      assert BattleTurn(f, [], draws[0]) == Blocked;
    }
  }

  // ---------------------------------------------------------------- lemmas

  /** The reply in front is consumed first. A lemma of its own so that
      the battle proofs cite this sequence fact instead of re-deriving it,
      which keeps them cheap for the solver. */
  lemma FirstReply(a: Reply, rest: seq<Reply>)
    ensures ([a] + rest)[1..] == rest
  {
  }

  /** Two replies in front split into the first and the rest. Like
      FirstReply, this one sequence fact is kept as a lemma of its own
      because stating it inline makes the battle proofs that use it much
      more costly for the solver. */
  lemma TwoReplies(a: Reply, b: Reply, rest: seq<Reply>)
    ensures [a, b] + rest == [a] + ([b] + rest)
  {
  }

  /** Attacking lowers the enemy's hp by exactly the resolver's damage
      (clamped at 0) and uses up the turn. */
  lemma AttackUsesTurn(f: Fighters, rest: seq<Reply>, draws: Draws)
    ensures var r := BattleTurn(f, [Typed("1")] + rest, draws);
            var dmg := CalculateDamage(f.player, f.enemy, NormalHit, IsCritical(draws.player));
            r.Turn? && r.rest == rest && r.after.enemy == TakeDamage(f.enemy, dmg) &&
            r.outcome != Escaped
  {
    FirstReply(Typed("1"), rest);
  }

  /** A reply that only moves between prompts is consumed with nothing changed. */
  lemma PhaseMoves(f: Fighters, at: Prompt, reply: Reply, rest: seq<Reply>, draw: real, next: Prompt)
    requires Respond(f, at, reply, draw) == Next(next)
    ensures PlayerPhase(f, at, [reply] + rest, draw) == PlayerPhase(f, next, rest, draw)
  {
    FirstReply(reply, rest);
  }

  /** A reply that acts ends the player's half with that action's state. */
  lemma PhaseActs(f: Fighters, at: Prompt, reply: Reply, rest: seq<Reply>, draw: real, g: Fighters)
    requires Respond(f, at, reply, draw) == Act(g)
    ensures PlayerPhase(f, at, [reply] + rest, draw) == Acted(g, rest)
  {
    FirstReply(reply, rest);
  }

  /** Opening the magic menu and going back re-prompts with nothing changed
      and no enemy turn. */
  lemma MagicBackChangesNothing(f: Fighters, rest: seq<Reply>, draw: real)
    ensures PlayerPhase(f, ActionPrompt, [Typed("2"), Typed("0")] + rest, draw)
            == PlayerPhase(f, ActionPrompt, rest, draw)
  {
    assert ShowActionMenu(Typed("2")) == Some("2");
    assert "0" in MagicChoices(f.player.mp);
    TwoReplies(Typed("2"), Typed("0"), rest);
    PhaseMoves(f, ActionPrompt, Typed("2"), [Typed("0")] + rest, draw, MagicPrompt);
    PhaseMoves(f, MagicPrompt, Typed("0"), rest, draw, ActionPrompt);
  }

  /** Opening the item menu and going back re-prompts with nothing changed;
      with no usable item the menu comes straight back without a prompt. */
  lemma ItemBackChangesNothing(f: Fighters, rest: seq<Reply>, draw: real)
    ensures AnyItemUsable(f.player.items) ==>
              PlayerPhase(f, ActionPrompt, [Typed("3"), Typed("0")] + rest, draw)
              == PlayerPhase(f, ActionPrompt, rest, draw)
    ensures !AnyItemUsable(f.player.items) ==>
              PlayerPhase(f, ActionPrompt, [Typed("3")] + rest, draw)
              == PlayerPhase(f, ActionPrompt, rest, draw)
  {
    assert ShowActionMenu(Typed("3")) == Some("3");
    if AnyItemUsable(f.player.items) {
      assert "0" in ItemChoices(f.player.items);
      TwoReplies(Typed("3"), Typed("0"), rest);
      PhaseMoves(f, ActionPrompt, Typed("3"), [Typed("0")] + rest, draw, ItemPrompt);
      PhaseMoves(f, ItemPrompt, Typed("0"), rest, draw, ActionPrompt);
    } else {
      PhaseMoves(f, ActionPrompt, Typed("3"), rest, draw, ActionPrompt);
    }
  }

  /** A line the action prompt does not accept is asked again, nothing changed. */
  lemma RefusedActionChangesNothing(f: Fighters, rest: seq<Reply>, draw: real, other: string)
    requires other !in ActionChoices
    ensures PlayerPhase(f, ActionPrompt, [Typed(other)] + rest, draw)
            == PlayerPhase(f, ActionPrompt, rest, draw)
  {
    PhaseMoves(f, ActionPrompt, Typed(other), rest, draw, ActionPrompt);
  }

  /** A spell the menu hands over is always affordable, so the defensive
      "not enough mp" branch of `battle_turn` is never taken. */
  lemma OfferedSpellIsPaid(p: Character, reply: Reply)
    requires ShowMagicMenu(p.mp, reply).Chosen?
    ensures UseMp(p, ShowMagicMenu(p.mp, reply).value.cost).0
  {
  }

  /** A spell handed over by the menu is paid for and cast. */
  lemma MagicStepCasts(f: Fighters, reply: Reply, draw: real, spell: Spell)
    requires ShowMagicMenu(f.player.mp, reply) == Chosen(spell)
    ensures MagicStep(f, reply, draw)
            == Act(CastSpell(f.(player := f.player.(mp := f.player.mp - spell.cost)), spell, IsCritical(draw)))
  {
    assert T1: spell.cost <= f.player.mp;
    var paid := UseMp(f.player, spell.cost);
    assert T2: paid.0 && paid.1 == f.player.(mp := f.player.mp - spell.cost);
  }

  /** Casting spell k (typed as its number at the spell prompt) when the mp
      covers it. */
  lemma CastStep(f: Fighters, k: nat, rest: seq<Reply>, draw: real)
    requires k < |MagicList| && MagicList[k].cost <= f.player.mp
    ensures PlayerPhase(f, ActionPrompt, [Typed("2"), Typed(MagicList[k].number)] + rest, draw)
            == Acted(CastSpell(f.(player := f.player.(mp := f.player.mp - MagicList[k].cost)), MagicList[k], IsCritical(draw)), rest)
  {
    MenusOpen(f, draw);
    MagicPromptCasts(f, k, draw);
    MenuThenAct(f, Typed("2"), MagicPrompt, Typed(MagicList[k].number),
                CastSpell(f.(player := f.player.(mp := f.player.mp - MagicList[k].cost)), MagicList[k], IsCritical(draw)),
                rest, draw);
  }

  /** A reply that opens a menu followed by one that acts in it ends the
      player's half with that action. */
  lemma MenuThenAct(f: Fighters, open: Reply, p: Prompt, pick: Reply, g: Fighters, rest: seq<Reply>, draw: real)
    requires Respond(f, ActionPrompt, open, draw) == Next(p)
    requires Respond(f, p, pick, draw) == Act(g)
    ensures PlayerPhase(f, ActionPrompt, [open, pick] + rest, draw) == Acted(g, rest)
  {
    TwoReplies(open, pick, rest);
    PhaseMoves(f, ActionPrompt, open, [pick] + rest, draw, p);
    PhaseActs(f, p, pick, rest, draw, g);
  }

  /** Typing "2" opens the spell prompt; typing "3" opens the item prompt
      when some item is usable. */
  lemma MenusOpen(f: Fighters, draw: real)
    ensures Respond(f, ActionPrompt, Typed("2"), draw) == Next(MagicPrompt)
    ensures AnyItemUsable(f.player.items) ==> Respond(f, ActionPrompt, Typed("3"), draw) == Next(ItemPrompt)
  {
    assert ShowActionMenu(Typed("2")) == Some("2");
    assert ShowActionMenu(Typed("3")) == Some("3");
  }

  /** At the spell prompt, the number of an affordable spell casts it. */
  lemma MagicPromptCasts(f: Fighters, k: nat, draw: real)
    requires k < |MagicList| && MagicList[k].cost <= f.player.mp
    ensures Respond(f, MagicPrompt, Typed(MagicList[k].number), draw)
            == Act(CastSpell(f.(player := f.player.(mp := f.player.mp - MagicList[k].cost)), MagicList[k], IsCritical(draw)))
  {
    SpellOfferedIffAffordable(f.player.mp, k);
    MagicStepCasts(f, Typed(MagicList[k].number), draw, MagicList[k]);
  }

  /** At the item prompt, the number of a held item uses it. */
  lemma ItemPromptUses(f: Fighters, k: nat, draw: real)
    requires k < |ItemList| && Count(f.player.items, ItemList[k].name) > 0
    ensures Respond(f, ItemPrompt, Typed(ItemList[k].number), draw) == Act(UseItem(f, ItemList[k].name))
  {
    ItemOfferedIffHeld(f.player.items, k);
  }

  /** ヒール costs 15 mp, heals 30 and leaves the enemy alone. */
  lemma HealSpellEffect(f: Fighters, rest: seq<Reply>, draw: real)
    requires f.player.mp >= 15
    ensures var r := PlayerPhase(f, ActionPrompt, [Typed("2"), Typed("2")] + rest, draw);
            r.Acted? && r.rest == rest && r.after.enemy == f.enemy &&
            r.after.player == Heal(f.player.(mp := f.player.mp - 15), HealSpellAmount)
  {
    CastStep(f, 1, rest, draw);
  }

  /** ファイア costs 10 mp and hits the enemy with multiplier 1.5. */
  lemma FireEffect(f: Fighters, rest: seq<Reply>, draw: real)
    requires f.player.mp >= 10
    ensures var r := PlayerPhase(f, ActionPrompt, [Typed("2"), Typed("1")] + rest, draw);
            r.Acted? && r.rest == rest && r.after.player == f.player.(mp := f.player.mp - 10) &&
            r.after.enemy == TakeDamage(f.enemy, CalculateDamage(f.player, f.enemy, StrongHit, IsCritical(draw)))
  {
    CastStep(f, 0, rest, draw);
  }

  /** サンダー costs 20 mp and hits the enemy with multiplier 2.0. */
  lemma ThunderEffect(f: Fighters, rest: seq<Reply>, draw: real)
    requires f.player.mp >= 20
    ensures var r := PlayerPhase(f, ActionPrompt, [Typed("2"), Typed("3")] + rest, draw);
            r.Acted? && r.rest == rest && r.after.player == f.player.(mp := f.player.mp - 20) &&
            r.after.enemy == TakeDamage(f.enemy, CalculateDamage(f.player, f.enemy, DoubleHit, IsCritical(draw)))
  {
    CastStep(f, 2, rest, draw);
  }

  /** Using item k (typed as its number at the item prompt) when one is held. */
  lemma ItemUseStep(f: Fighters, k: nat, rest: seq<Reply>, draw: real)
    requires k < |ItemList| && Count(f.player.items, ItemList[k].name) > 0
    ensures PlayerPhase(f, ActionPrompt, [Typed("3"), Typed(ItemList[k].number)] + rest, draw)
            == Acted(UseItem(f, ItemList[k].name), rest)
  {
    var row := ItemList[k];
    ItemOfferedIffHeld(f.player.items, k);
    MenusOpen(f, draw);
    ItemPromptUses(f, k, draw);
    MenuThenAct(f, Typed("3"), ItemPrompt, Typed(row.number), UseItem(f, row.name), rest, draw);
  }

  /** Setting one count leaves every other count alone. */
  lemma CountUpdate(items: Items, name: string, v: int)
    ensures Count(items[name := v], name) == v
    ensures forall k :: k != name ==> Count(items[name := v], k) == Count(items, k)
  {
  }

  /** 回復薬 heals 50, takes one 回復薬 and leaves mp, the enemy and every
      other count alone. */
  lemma PotionEffect(f: Fighters, rest: seq<Reply>, draw: real)
    requires Count(f.player.items, Potion) > 0
    ensures var r := PlayerPhase(f, ActionPrompt, [Typed("3"), Typed("1")] + rest, draw);
            r.Acted? && r.rest == rest && r.after.enemy == f.enemy &&
            r.after.player.hp == Heal(f.player, PotionAmount).hp && r.after.player.mp == f.player.mp &&
            Count(r.after.player.items, Potion) == Count(f.player.items, Potion) - 1 &&
            (forall k :: k != Potion ==> Count(r.after.player.items, k) == Count(f.player.items, k))
  {
    ItemUseStep(f, 0, rest, draw);
    CountUpdate(f.player.items, Potion, Count(f.player.items, Potion) - 1);
  }

  /** 魔法の水 restores 20 mp, takes one 魔法の水 and leaves hp, the enemy and
      every other count alone. */
  lemma EtherEffect(f: Fighters, rest: seq<Reply>, draw: real)
    requires Count(f.player.items, Ether) > 0
    ensures var r := PlayerPhase(f, ActionPrompt, [Typed("3"), Typed("2")] + rest, draw);
            r.Acted? && r.rest == rest && r.after.enemy == f.enemy &&
            r.after.player.mp == RestoreMp(f.player, EtherAmount).mp && r.after.player.hp == f.player.hp &&
            Count(r.after.player.items, Ether) == Count(f.player.items, Ether) - 1 &&
            (forall k :: k != Ether ==> Count(r.after.player.items, k) == Count(f.player.items, k))
  {
    ItemUseStep(f, 1, rest, draw);
    CountUpdate(f.player.items, Ether, Count(f.player.items, Ether) - 1);
  }

  /** A flee roll below 0.5 ends the battle at once with both combatants as
      they were; a higher roll uses up the turn and the enemy attacks. */
  lemma FleeOutcomes(f: Fighters, rest: seq<Reply>, draws: Draws)
    requires IsAlive(f.enemy)
    ensures var r := BattleTurn(f, [Typed("4")] + rest, draws);
            r.Turn? && r.rest == rest && r.after.enemy == f.enemy &&
            (draws.player < FleeChance <==> r.outcome == Escaped) &&
            (draws.player < FleeChance ==> r.after.player == f.player) &&
            (!(draws.player < FleeChance) ==> r.after.player == EnemyPhase(f, draws).player)
  {
    FleeStep(f, rest, draws.player);
  }

  /** Typing 4 at the action prompt escapes on a roll below 0.5 and otherwise
      spends the turn; either way only a log line is added. */
  lemma FleeStep(f: Fighters, rest: seq<Reply>, draw: real)
    ensures PlayerPhase(f, ActionPrompt, [Typed("4")] + rest, draw)
            == if draw < FleeChance then Fled(f.(log := Add(f.log, "戦闘から逃げ出した!", "yellow")), rest)
               else Acted(f.(log := Add(f.log, "逃げることに失敗した...", "red")), rest)
  {
    FirstReply(Typed("4"), rest);
    assert ShowActionMenu(Typed("4")) == Some("4");
  }

  /** Once the player's action leaves the enemy at 0 hp the turn is a victory
      and the enemy does not act; otherwise the enemy attacks and the turn is
      a defeat exactly when the player is left at 0 hp. */
  lemma TurnOutcome(f: Fighters, replies: seq<Reply>, draws: Draws)
    requires PlayerPhase(f, ActionPrompt, replies, draws.player).Acted?
    ensures var p := PlayerPhase(f, ActionPrompt, replies, draws.player);
            var r := BattleTurn(f, replies, draws);
            r.Turn? && r.rest == p.rest &&
            (p.after.enemy.hp <= 0 ==> r.outcome == Victory && r.after == p.after) &&
            (p.after.enemy.hp > 0 ==> r.after == EnemyPhase(p.after, draws) &&
                                      (r.outcome == Defeat <==> r.after.player.hp == 0) &&
                                      (r.outcome == Continue <==> r.after.player.hp > 0))
  {
  }

  /** `start_battle` stops exactly on victory, defeat or escape, with the
      outcome and state of the turn that broke the loop; a turn that
      continues hands over to the next turn with the state and the replies
      it left, and the battle ends as that rest of it ends, one turn later. */
  lemma LoopContinues(f: Fighters, replies: seq<Reply>, draws: seq<Draws>)
    requires |draws| > 0
    ensures var t := BattleTurn(f, replies, draws[0]);
            t.Turn? && t.outcome == Continue ==>
              var whole := RunBattle(f, replies, draws);
              var later := RunBattle(t.after, t.rest, draws[1..]);
              whole.turns == later.turns + 1 && whole.Over? == later.Over? &&
              (whole.Over? ==> whole.outcome == later.outcome && whole.after == later.after) &&
              (whole.Suspended? ==> whole.at == later.at)
    ensures var t := BattleTurn(f, replies, draws[0]);
            t.Turn? && t.outcome != Continue ==> RunBattle(f, replies, draws) == Over(t.outcome, t.after, 1)
    ensures BattleTurn(f, replies, draws[0]).Blocked? ==> RunBattle(f, replies, draws) == Suspended(f, 0)
  {
  }

  /** The vitals, the log bound and non-negative item counts hold after every
      turn of a battle. */
  lemma {:induction false} RunBattleKeepsSound(f: Fighters, replies: seq<Reply>, draws: seq<Draws>)
    requires Sound(f)
    ensures Sound(match RunBattle(f, replies, draws) case Over(_, g, _) => g case Suspended(g, _) => g)
    decreases |draws|
  {
    if |draws| > 0 {
      var t := BattleTurn(f, replies, draws[0]);
      if t.Turn? && t.outcome == Continue {
        RunBattleKeepsSound(t.after, t.rest, draws[1..]);
      }
    }
  }

  /** In the opening fight (attack 25 against a goblin with defense 5 and
      80 hp) the hero's plain attack deals 22, or 33 on a critical hit. */
  lemma HeroAttacksGoblin(f: Fighters, rest: seq<Reply>, draws: Draws)
    requires f.player.attack == 25 && f.enemy.defense == 5 && f.enemy.hp == 80
    ensures var r := BattleTurn(f, [Typed("1")] + rest, draws);
            r.Turn? && r.after.enemy.hp == (if IsCritical(draws.player) then 80 - 33 else 80 - 22)
  {
    AttackUsesTurn(f, rest, draws);
    var dmg := CalculateDamage(f.player, f.enemy, NormalHit, IsCritical(draws.player));
    assert dmg == (if IsCritical(draws.player) then 33 else 22) by {
      assert Mitigated(25, 5, NormalHit) == 22;
    }
  }
}

=== FILE: battle_log.dfy ===
/** The bounded battle log of `battle_log.py`: a `deque(maxlen=max_lines)` of
    (message, style) pairs, newest last, and the text its panel shows. */
module BattleLogs {

  const DefaultMaxLines: nat := 10
  const DefaultStyle: string := "white"
  /** What the panel shows while the log is empty. */
  const Placeholder: string := "[dim]戦闘ログ[/dim]"

  datatype Entry = Entry(message: string, style: string)

  datatype BattleLog = BattleLog(maxLines: nat, logs: seq<Entry>)

  /** The deque never holds more than its maxlen. */
  predicate Valid(l: BattleLog) {
    |l.logs| <= l.maxLines
  }

  /** `BattleLog(max_lines)`. */
  function NewLog(maxLines: nat): (l: BattleLog)
    ensures Valid(l) && l.maxLines == maxLines && |l.logs| == 0
  {
    BattleLog(maxLines, [])
  }

  /** The newest `n` entries of `s`, oldest first. */
  function Newest(s: seq<Entry>, n: nat): (r: seq<Entry>)
    ensures |r| == if |s| < n then |s| else n
    ensures r == s[|s| - |r|..]
  {
    if |s| <= n then s else s[|s| - n..]
  }

  /** `add(message, style)`: append at the newest end; a full deque drops its
      oldest entry (a deque of maxlen 0 keeps nothing). */
  function Add(l: BattleLog, message: string, style: string): (r: BattleLog)
    ensures r.maxLines == l.maxLines && Valid(r)
    ensures l.maxLines > 0 ==> |r.logs| > 0 && r.logs[|r.logs| - 1] == Entry(message, style)
    ensures |l.logs| < l.maxLines ==> r.logs == l.logs + [Entry(message, style)]
    ensures 0 < |l.logs| == l.maxLines ==> r.logs == l.logs[1..] + [Entry(message, style)]
    ensures l.maxLines == 0 ==> r.logs == []
  {
    l.(logs := Newest(l.logs + [Entry(message, style)], l.maxLines))
  }

  /** `add(message)` with the default style. */
  function AddPlain(l: BattleLog, message: string): (r: BattleLog)
    ensures r.maxLines == l.maxLines && Valid(r)
    ensures l.maxLines > 0 ==> |r.logs| > 0 && r.logs[|r.logs| - 1] == Entry(message, "white")
    ensures |l.logs| < l.maxLines ==> r.logs == l.logs + [Entry(message, "white")]
    ensures 0 < |l.logs| == l.maxLines ==> r.logs == l.logs[1..] + [Entry(message, "white")]
    ensures l.maxLines == 0 ==> r.logs == []
  {
    Add(l, message, DefaultStyle)
  }

  /** A run of `add` calls, one per entry, in order. */
  function AddAll(l: BattleLog, es: seq<Entry>): (r: BattleLog)
    ensures r.maxLines == l.maxLines
    ensures Valid(l) ==> Valid(r)
    decreases |es|
  {
    if |es| == 0 then l else AddAll(Add(l, es[0].message, es[0].style), es[1..])
  }

  /** Trimming to the newest n before appending more changes nothing once
      the result is trimmed to the newest n again. */
  lemma NewestThenAppend(s: seq<Entry>, t: seq<Entry>, n: nat)
    ensures Newest(Newest(s, n) + t, n) == Newest(s + t, n)
  {
    var x := Newest(s, n);
    var k := |s| - |x|;
    assert x + t == (s + t)[k..];
  }

  /** After any run of adds the log holds the newest `maxLines` of everything
      that was in it and everything added, in insertion order. */
  lemma {:induction false} AddAllKeepsNewest(l: BattleLog, es: seq<Entry>)
    requires Valid(l)
    ensures AddAll(l, es).maxLines == l.maxLines
    ensures AddAll(l, es).logs == Newest(l.logs + es, l.maxLines)
    decreases |es|
  {
    if |es| > 0 {
      var l' := Add(l, es[0].message, es[0].style);
      AddAllKeepsNewest(l', es[1..]);
      AddThenNewest(l, es);
    } else {
      assert l.logs + es == l.logs;
    }
  }

  /** One add followed by the remaining entries keeps what adding them all
      at once keeps. */
  lemma AddThenNewest(l: BattleLog, es: seq<Entry>)
    requires |es| > 0
    ensures Newest(Add(l, es[0].message, es[0].style).logs + es[1..], l.maxLines) == Newest(l.logs + es, l.maxLines)
  {
    NewestThenAppend(l.logs + [es[0]], es[1..], l.maxLines);
    assert l.logs + [es[0]] + es[1..] == l.logs + es;
  }

  /** From a fresh log, n adds leave exactly the last min(n, maxLines) entries. */
  lemma FreshLogAfterAdds(maxLines: nat, es: seq<Entry>)
    ensures AddAll(NewLog(maxLines), es).logs == Newest(es, maxLines)
  {
    AddAllKeepsNewest(NewLog(maxLines), es);
    assert NewLog(maxLines).logs + es == es;
  }

  /** One panel line: `[style]• message[/style]`. The message sits whole
      between the opening tag with its bullet and the closing tag. */
  function FormatEntry(e: Entry): (r: string)
    ensures |r| == |e.message| + 2 * |e.style| + 7
    ensures r[|e.style| + 4..|e.style| + 4 + |e.message|] == e.message
    ensures r[0] == '[' && r[|r| - 1] == ']'
  {
    "[" + e.style + "]• " + e.message + "[/" + e.style + "]"
  }

  /** The `lines` list `render` builds, one per entry. */
  function RenderLines(l: BattleLog): (lines: seq<string>)
    ensures |lines| == |l.logs|
    ensures forall i :: 0 <= i < |lines| ==> lines[i] == FormatEntry(l.logs[i])
  {
    seq(|l.logs|, i requires 0 <= i < |l.logs| => FormatEntry(l.logs[i]))
  }

  /** `"\n".join(lines)`. */
  function Join(lines: seq<string>): string
    requires |lines| > 0
    decreases |lines|
  {
    if |lines| == 1 then lines[0] else lines[0] + "\n" + Join(lines[1..])
  }

  /** The joined text starts with the first line and ends with the last. */
  lemma {:induction false} JoinEnds(lines: seq<string>)
    requires |lines| > 0
    ensures |lines[0]| <= |Join(lines)| && Join(lines)[..|lines[0]|] == lines[0]
    ensures var last := lines[|lines| - 1];
            |last| <= |Join(lines)| && Join(lines)[|Join(lines)| - |last|..] == last
    decreases |lines|
  {
    if |lines| > 1 {
      JoinEnds(lines[1..]);
      var rest := Join(lines[1..]);
      assert Join(lines) == lines[0] + ("\n" + rest);
    }
  }

  /** `s.split("\n")`: the reference reading of a panel body back into lines. */
  function SplitLines(s: string): (r: seq<string>)
    ensures |r| > 0
    decreases |s|
  {
    if |s| == 0 then [""]
    else
      var rest := SplitLines(s[1..]);
      if s[0] == '\n' then [""] + rest else [[s[0]] + rest[0]] + rest[1..]
  }

  /** The text of the log panel: the placeholder while the log is empty,
      otherwise the oldest kept entry on top and the newest at the bottom. */
  function RenderBody(l: BattleLog): (r: string)
    ensures |l.logs| == 0 ==> r == Placeholder
    ensures |l.logs| > 0 ==>
              |FormatEntry(l.logs[0])| <= |r| && r[..|FormatEntry(l.logs[0])|] == FormatEntry(l.logs[0])
    ensures |l.logs| > 0 ==>
              var last := FormatEntry(l.logs[|l.logs| - 1]);
              |last| <= |r| && r[|r| - |last|..] == last
  {
    if |l.logs| == 0 then Placeholder else JoinEnds(RenderLines(l)); Join(RenderLines(l))
  }

  predicate NoNewline(s: string) {
    forall i :: 0 <= i < |s| ==> s[i] != '\n'
  }

  lemma {:induction false} SplitPrefix(x: string, t: string)
    requires NoNewline(x)
    ensures SplitLines(x + t) == [x + SplitLines(t)[0]] + SplitLines(t)[1..]
    decreases |x|
  {
    if |x| > 0 {
      assert (x + t)[1..] == x[1..] + t;
      SplitPrefix(x[1..], t);
      assert [x[0]] + (x[1..] + SplitLines(t)[0]) == x + SplitLines(t)[0];
    } else {
      var r := SplitLines(t);
      assert x + t == t && x + r[0] == r[0];
      assert r == [r[0]] + r[1..];
    }
  }

  /** Splitting the joined lines gives the lines back when none holds a newline. */
  lemma {:induction false} SplitJoin(lines: seq<string>)
    requires |lines| > 0
    requires forall i :: 0 <= i < |lines| ==> NoNewline(lines[i])
    ensures SplitLines(Join(lines)) == lines
    decreases |lines|
  {
    if |lines| == 1 {
      SplitPrefix(lines[0], "");
      assert lines[0] + "" == lines[0];
    } else {
      SplitJoin(lines[1..]);
      var rest := Join(lines[1..]);
      assert lines[0] + "\n" + rest == lines[0] + ("\n" + rest);
      SplitPrefix(lines[0], "\n" + rest);
      assert ("\n" + rest)[1..] == rest;
      assert lines[0] + "" == lines[0];
      assert lines == [lines[0]] + lines[1..];
    }
  }

  /** The panel shows one line per entry, in log order, when no message or
      style contains a newline; an empty log shows the placeholder. */
  lemma RenderOneLinePerEntry(l: BattleLog)
    requires forall i :: 0 <= i < |l.logs| ==>
               NoNewline(l.logs[i].message) && NoNewline(l.logs[i].style)
    ensures |l.logs| == 0 ==> RenderBody(l) == Placeholder
    ensures |l.logs| > 0 ==> SplitLines(RenderBody(l)) == RenderLines(l)
  {
    if |l.logs| > 0 {
      var lines := RenderLines(l);
      forall i | 0 <= i < |lines|
        ensures NoNewline(lines[i])
      {
        var e := l.logs[i];
        assert lines[i] == "[" + e.style + "]• " + e.message + "[/" + e.style + "]";
      }
      SplitJoin(lines);
    }
  }
}

=== FILE: character.dfy ===
/** The combatant record of `character.py` and its four clamped mutators.
    Each mutator returns the updated character instead of changing it in place. */
module Characters {

  /** Inventory keys: the healing potion and the magic water. */
  const Potion: string := "回復薬"
  const Ether: string := "魔法の水"

  /** Python's `items` dict from item name to count. */
  type Items = map<string, int>

  datatype Character = Character(
    name: string,
    hp: int, maxHp: int,
    mp: int, maxMp: int,
    attack: int, defense: int,
    items: Items)

  /** The vitals invariant the game relies on: both gauges within [0, max]. */
  predicate Valid(c: Character) {
    0 <= c.hp <= c.maxHp && 0 <= c.mp <= c.maxMp
  }

  /** `items.get(name, 0)`. */
  function Count(items: Items, name: string): int {
    if name in items then items[name] else 0
  }

  /** `Character(name, hp, max_hp, mp, max_mp, attack, defense)`: every new
      character carries three potions and two magic waters. */
  function NewCharacter(name: string, hp: int, maxHp: int, mp: int, maxMp: int,
                        attack: int, defense: int): (c: Character)
    ensures c.name == name && c.hp == hp && c.maxHp == maxHp
    ensures c.mp == mp && c.maxMp == maxMp && c.attack == attack && c.defense == defense
    ensures c.items.Keys == {Potion, Ether}
    ensures Count(c.items, Potion) == 3 && Count(c.items, Ether) == 2
  {
    Character(name, hp, maxHp, mp, maxMp, attack, defense, map[Potion := 3, Ether := 2])
  }

  /** `is_alive`: hp is positive. Within the stat bounds that means hp has
      not fallen to 0. */
  predicate IsAlive(c: Character)
    ensures Valid(c) ==> (IsAlive(c) <==> c.hp != 0)
  {
    c.hp > 0
  }

  /** `take_damage`: hp falls by `damage` but not below zero. */
  function TakeDamage(c: Character, damage: int): (r: Character)
    ensures r == c.(hp := r.hp)
    ensures r.hp >= 0 && r.hp >= c.hp - damage
    ensures r.hp == 0 || r.hp == c.hp - damage
    ensures c.hp >= 0 && damage >= 0 ==> r.hp <= c.hp
  {
    c.(hp := if c.hp - damage > 0 then c.hp - damage else 0)
  }

  /** `heal`: hp rises by `amount` but not above max_hp. */
  function Heal(c: Character, amount: int): (r: Character)
    ensures r == c.(hp := r.hp)
    ensures r.hp <= c.maxHp && r.hp <= c.hp + amount
    ensures r.hp == c.maxHp || r.hp == c.hp + amount
    ensures c.hp <= c.maxHp && amount >= 0 ==> r.hp >= c.hp
  {
    c.(hp := if c.hp + amount < c.maxHp then c.hp + amount else c.maxHp)
  }

  /** `use_mp`: spends `amount` when there is enough, and reports whether it did. */
  function UseMp(c: Character, amount: int): (r: (bool, Character))
    ensures r.0 <==> c.mp >= amount
    ensures r.0 ==> r.1 == c.(mp := c.mp - amount)
    ensures !r.0 ==> r.1 == c
  {
    if c.mp >= amount then (true, c.(mp := c.mp - amount)) else (false, c)
  }

  /** `restore_mp`: mp rises by `amount` but not above max_mp. */
  function RestoreMp(c: Character, amount: int): (r: Character)
    ensures r == c.(mp := r.mp)
    ensures r.mp <= c.maxMp && r.mp <= c.mp + amount
    ensures r.mp == c.maxMp || r.mp == c.mp + amount
    ensures c.mp <= c.maxMp && amount >= 0 ==> r.mp >= c.mp
  {
    c.(mp := if c.mp + amount < c.maxMp then c.mp + amount else c.maxMp)
  }

  /** A character is alive after a hit exactly when the hit was smaller than its hp. */
  lemma AliveAfterDamage(c: Character, damage: int)
    ensures IsAlive(TakeDamage(c, damage)) <==> c.hp > damage
  {
  }

  /** Non-negative amounts keep the vitals invariant through every mutator. */
  lemma MutatorsPreserveValid(c: Character, amount: int)
    requires Valid(c) && amount >= 0
    ensures Valid(TakeDamage(c, amount))
    ensures Valid(Heal(c, amount))
    ensures Valid(UseMp(c, amount).1)
    ensures Valid(RestoreMp(c, amount))
  {
  }

  /** A spend that succeeds is undone by restoring the same amount. */
  lemma UseMpThenRestore(c: Character, amount: int)
    requires c.mp <= c.maxMp && amount >= 0 && UseMp(c, amount).0
    ensures RestoreMp(UseMp(c, amount).1, amount) == c
  {
  }
}

=== FILE: combat.dfy ===
/** The damage resolver of `combat.py`.

    Python computes `int(max(1, attack * multiplier - defense * 0.5))` in
    floating point. Every multiplier the game uses (1.0, 1.5, 2.0) and the
    defense factor 0.5 are whole numbers of halves, so the model counts in
    half-units: a multiplier is given as `halves` (2, 3 or 4) and the raw
    damage in half-points is `halves * attack - defense`. */
module Combat {
  import opened Characters

  /** Multipliers in half-units. */
  const NormalHit: nat := 2     // 1.0: plain attack
  const StrongHit: nat := 3     // 1.5: enemy strong attack, ファイア
  const DoubleHit: nat := 4     // 2.0: サンダー

  /** `random.random() < 0.15`: Python compares against the double nearest
      0.15, which lies just below it. */
  const CritChance: real := 0.1499999999999999944488848768742172978818416595458984375

  /** A hit is critical when the draw is strictly below that double: every
      critical draw is below 0.15, and every draw up to the largest double
      below that one (1351079888211148 · 2^-53, the largest critical output
      of `random.random()`) is critical. */
  predicate IsCritical(draw: real)
    ensures IsCritical(draw) ==> draw < 0.15
    ensures draw <= 0.149999999999999911182158029987476766109466552734375 ==> IsCritical(draw)
  {
    draw < CritChance
  }

  /** The raw damage, in half-points, before the floor of 1. */
  function RawHalves(attack: int, defense: int, halves: nat): int {
    halves * attack - defense
  }

  /** `int(max(1, base_damage - defense_reduction))`: the mitigated damage,
      floored to a whole point and never below 1. */
  function Mitigated(attack: int, defense: int, halves: nat): (d: nat)
    ensures d >= 1
    ensures RawHalves(attack, defense, halves) < 2 ==> d == 1
    ensures RawHalves(attack, defense, halves) >= 2 ==>
              2 * d <= RawHalves(attack, defense, halves) < 2 * d + 2
  {
    var raw := RawHalves(attack, defense, halves);
    if raw < 2 then 1 else raw / 2
  }

  /** `calculate_damage(attacker, defender, multiplier)` with the critical-hit
      draw already decided: a critical hit multiplies the mitigated damage by
      1.5 and floors once. Neither combatant is changed. */
  function CalculateDamage(attacker: Character, defender: Character, halves: nat,
                           critical: bool): (d: nat)
    ensures d >= 1
    ensures !critical ==> d == Mitigated(attacker.attack, defender.defense, halves)
    ensures critical ==>
              var m := Mitigated(attacker.attack, defender.defense, halves);
              2 * d <= 3 * m < 2 * d + 2
  {
    var m := Mitigated(attacker.attack, defender.defense, halves);
    if critical then (3 * m) / 2 else m
  }

  /** A critical hit never deals less than the same hit without it. */
  lemma CriticalAtLeastNormal(attacker: Character, defender: Character, halves: nat)
    ensures CalculateDamage(attacker, defender, halves, true)
            >= CalculateDamage(attacker, defender, halves, false)
  {
  }

  /** More attack never lowers the damage. */
  lemma DamageMonotoneInAttack(attacker: Character, stronger: Character,
                                                  defender: Character, halves: nat, critical: bool)
    requires attacker.attack <= stronger.attack
    ensures CalculateDamage(attacker, defender, halves, critical)
            <= CalculateDamage(stronger, defender, halves, critical)
  {
    MulMonotone(halves, attacker.attack, stronger.attack);
    MitigatedMonotone(attacker.attack, defender.defense, stronger.attack, defender.defense, halves);
  }

  /** More defense never raises the damage. */
  lemma DamageAntitoneInDefense(attacker: Character, defender: Character,
                                                   tougher: Character, halves: nat, critical: bool)
    requires defender.defense <= tougher.defense
    ensures CalculateDamage(attacker, tougher, halves, critical)
            <= CalculateDamage(attacker, defender, halves, critical)
  {
    MitigatedMonotone(attacker.attack, tougher.defense, attacker.attack, defender.defense, halves);
  }

  lemma MulMonotone(k: nat, a: int, b: int)
    requires a <= b
    ensures k * a <= k * b
  {
  }

  lemma MitigatedMonotone(a1: int, d1: int, a2: int, d2: int, halves: nat)
    requires RawHalves(a1, d1, halves) <= RawHalves(a2, d2, halves)
    ensures Mitigated(a1, d1, halves) <= Mitigated(a2, d2, halves)
    ensures 3 * Mitigated(a1, d1, halves) / 2 <= 3 * Mitigated(a2, d2, halves) / 2
  {
  }

  /** Attack 25 against defense 10 at multiplier 1.0, no critical: 20 damage. */
  lemma HeroHitsForTwenty()
    ensures CalculateDamage(NewCharacter("勇者", 100, 100, 50, 50, 25, 10),
                            NewCharacter("x", 10, 10, 0, 0, 0, 10), NormalHit, false) == 20
  {
  }
}

=== FILE: rpg_text.dfy ===
/** The pure text helpers of the TypeScript front-end `rpg.ts`: keyword
    colouring of story lines, the icon shown beside a choice, the byte-order
    mark strip applied to the story file, and the check on the number the
    player types for a choice.

    TypeScript strings are UTF-16 code units and Dafny strings are Unicode
    scalar values; every keyword and the BOM are single code units or whole
    code points, so substring tests and the one-character strip agree. */
module RpgText {
  import opened Basics

  // ANSI escape sequences of the `colors` table.
  const Reset: string := "\U{1B}[0m"
  const Bright: string := "\U{1B}[1m"
  const Red: string := "\U{1B}[31m"
  const Green: string := "\U{1B}[32m"
  const Yellow: string := "\U{1B}[33m"
  const Magenta: string := "\U{1B}[35m"
  const Cyan: string := "\U{1B}[36m"

  /** Indent of a line that matches no keyword. */
  const Plain: string := "   "

  // The keyword groups, in the order the two functions test them.
  const StatusWords: seq<string> := ["HP:", "ゴールド:"]
  const DragonWords: seq<string> := ["ドラゴン"]
  const GameOverWords: seq<string> := ["GAME OVER"]
  const CongratsWords: seq<string> := ["おめでとう"]
  const PlaceWords: seq<string> := ["城", "街", "宿屋", "武器屋"]
  const BattleWords: seq<string> := ["戦い"]
  const TreasureWords: seq<string> := ["鍵", "剣", "宝"]
  const FightWords: seq<string> := ["戦う"]
  const FleeWords: seq<string> := ["逃げる"]
  const EnterWords: seq<string> := ["入る", "向かう"]
  const ReturnWords: seq<string> := ["戻る"]
  const RestWords: seq<string> := ["休む", "宿屋"]
  const ShopWords: seq<string> := ["買う", "武器屋"]
  const LeaveWords: seq<string> := ["立ち去る"]
  const LeftWords: seq<string> := ["左"]
  const RightWords: seq<string> := ["右"]
  const OutsideWords: seq<string> := ["外"]

  /** `text.includes(k)` for some keyword `k` of the list. */
  predicate IncludesAny(text: string, keywords: seq<string>)
    decreases |keywords|
  {
    |keywords| > 0 && (Contains(text, keywords[0]) || IncludesAny(text, keywords[1..]))
  }

  /** `colorizeText`: the first keyword group the line contains decides the
      colour and icon; a line with none is only indented. Either way the
      line itself survives verbatim: just before the reset code, or after
      the indent. */
  function ColorizeText(text: string): (r: string)
    ensures (|r| >= |text| + |Reset| && r[|r| - |Reset| - |text|..|r| - |Reset|] == text &&
             r[|r| - |Reset|..] == Reset)
            || r == Plain + text
  {
    if IncludesAny(text, StatusWords) then Yellow + "\U{1F4CA} " + text + Reset
    else if IncludesAny(text, DragonWords) then Red + Bright + "\U{1F409} " + text + Reset
    else if IncludesAny(text, GameOverWords) then Red + Bright + "\U{1F480} " + text + Reset
    else if IncludesAny(text, CongratsWords) then Green + Bright + "\U{1F389} " + text + Reset
    else if IncludesAny(text, PlaceWords) then Cyan + "\U{1F4CD} " + text + Reset
    else if IncludesAny(text, BattleWords) then Red + "\U{2694}\U{FE0F}  " + text + Reset
    else if IncludesAny(text, TreasureWords) then Magenta + "\U{2728} " + text + Reset
    else Plain + text
  }

  /** A keyword group and the mark it puts before a matching line. */
  datatype Rule = Rule(keywords: seq<string>, mark: string)

  /** The colouring rules in priority order; `mark` is the colour and icon
      put before the line. */
  const ColorRules: seq<Rule> := [
    Rule(StatusWords, Yellow + "\U{1F4CA} "),
    Rule(DragonWords, Red + Bright + "\U{1F409} "),
    Rule(GameOverWords, Red + Bright + "\U{1F480} "),
    Rule(CongratsWords, Green + Bright + "\U{1F389} "),
    Rule(PlaceWords, Cyan + "\U{1F4CD} "),
    Rule(BattleWords, Red + "\U{2694}\U{FE0F}  "),
    Rule(TreasureWords, Magenta + "\U{2728} ")
  ]

  /** The position of the first rule whose keywords the text contains. */
  function FirstMatch(rules: seq<Rule>, text: string): (r: Option<nat>)
    ensures r.Some? ==> r.value < |rules| && IncludesAny(text, rules[r.value].keywords)
    ensures r.Some? ==> forall j :: 0 <= j < r.value ==> !IncludesAny(text, rules[j].keywords)
    ensures r.None? ==> forall j :: 0 <= j < |rules| ==> !IncludesAny(text, rules[j].keywords)
    decreases |rules|
  {
    if |rules| == 0 then None
    else if IncludesAny(text, rules[0].keywords) then Some(0)
    else
      match FirstMatch(rules[1..], text)
      case None => None
      case Some(i) => Some(i + 1)
  }

  /** The first match is pinned down by its two properties. */
  lemma FirstMatchIs(rules: seq<Rule>, text: string, k: nat)
    requires k < |rules| && IncludesAny(text, rules[k].keywords)
    requires forall j :: 0 <= j < k ==> !IncludesAny(text, rules[j].keywords)
    ensures FirstMatch(rules, text) == Some(k)
  {
  }

  lemma NoneMatches(rules: seq<Rule>, text: string)
    requires forall j :: 0 <= j < |rules| ==> !IncludesAny(text, rules[j].keywords)
    ensures FirstMatch(rules, text) == None
  {
  }

  /** The reference colouring: the first matching rule's colour and icon,
      the line unchanged, then the reset code; or the plain indent. */
  function ColorizeByRules(text: string): string {
    match FirstMatch(ColorRules, text)
    case Some(i) => ColorRules[i].mark + text + Reset
    case None => Plain + text
  }

  /** `colorizeText` applies the rules in their priority order: the first
      group that matches wins, and the line itself is kept verbatim. */
  lemma ColorizeFollowsRules(text: string)
    ensures ColorizeText(text) == ColorizeByRules(text)
  {
    if IncludesAny(text, StatusWords) { FirstMatchIs(ColorRules, text, 0); }
    else if IncludesAny(text, DragonWords) { FirstMatchIs(ColorRules, text, 1); }
    else if IncludesAny(text, GameOverWords) { FirstMatchIs(ColorRules, text, 2); }
    else if IncludesAny(text, CongratsWords) { FirstMatchIs(ColorRules, text, 3); }
    else { ColorizeLaterRules(text); }
  }

  lemma ColorizeLaterRules(text: string)
    requires !IncludesAny(text, StatusWords) && !IncludesAny(text, DragonWords)
    requires !IncludesAny(text, GameOverWords) && !IncludesAny(text, CongratsWords)
    ensures ColorizeText(text) == ColorizeByRules(text)
  {
    if IncludesAny(text, PlaceWords) { FirstMatchIs(ColorRules, text, 4); }
    else if IncludesAny(text, BattleWords) { FirstMatchIs(ColorRules, text, 5); }
    else if IncludesAny(text, TreasureWords) { FirstMatchIs(ColorRules, text, 6); }
    else { NoneMatches(ColorRules, text); }
  }

  /** The status keywords are tried first: a line that mentions "HP:"
      anywhere gets the status colour and icon, whatever else it contains. */
  lemma StatusLineWins(before: string, after: string)
    ensures ColorizeText(before + "HP:" + after) == Yellow + "\U{1F4CA} " + (before + "HP:" + after) + Reset
  {
    var text := before + "HP:" + after;
    assert text[|before|..|before| + 3] == "HP:";
    ContainsAt(text, "HP:", |before|);
    assert IncludesAny(text, StatusWords);
  }

  /** The icons of `getChoiceIcon`, in priority order. */
  const IconRules: seq<Rule> := [
    Rule(FightWords, "\U{2694}\U{FE0F}"),
    Rule(FleeWords, "\U{1F3C3}"),
    Rule(EnterWords, "\U{1F6AA}"),
    Rule(ReturnWords, "\U{21A9}\U{FE0F}"),
    Rule(RestWords, "\U{1F6CF}\U{FE0F}"),
    Rule(ShopWords, "\U{1F6D2}"),
    Rule(LeaveWords, "\U{1F44B}"),
    Rule(LeftWords, "\U{2B05}\U{FE0F}"),
    Rule(RightWords, "\U{27A1}\U{FE0F}"),
    Rule(OutsideWords, "\U{1F6AA}")
  ]

  const DefaultIcon: string := "\U{27A4}"

  /** `getChoiceIcon`: a choice that says "戦う" always gets the crossed
      swords, and the arrow is shown only when no keyword group matches. */
  function GetChoiceIcon(text: string): (r: string)
    ensures Contains(text, "戦う") ==> r == "\U{2694}\U{FE0F}"
    ensures r == DefaultIcon ==> forall j :: 0 <= j < |IconRules| ==> !IncludesAny(text, IconRules[j].keywords)
  {
    if IncludesAny(text, FightWords) then "\U{2694}\U{FE0F}"
    else if IncludesAny(text, FleeWords) then "\U{1F3C3}"
    else if IncludesAny(text, EnterWords) then "\U{1F6AA}"
    else if IncludesAny(text, ReturnWords) then "\U{21A9}\U{FE0F}"
    else if IncludesAny(text, RestWords) then "\U{1F6CF}\U{FE0F}"
    else if IncludesAny(text, ShopWords) then "\U{1F6D2}"
    else if IncludesAny(text, LeaveWords) then "\U{1F44B}"
    else if IncludesAny(text, LeftWords) then "\U{2B05}\U{FE0F}"
    else if IncludesAny(text, RightWords) then "\U{27A1}\U{FE0F}"
    else if IncludesAny(text, OutsideWords) then "\U{1F6AA}"
    else DefaultIcon
  }

  /** The reference icon: that of the first matching rule, else the arrow. */
  function IconByRules(text: string): string {
    match FirstMatch(IconRules, text)
    case Some(i) => IconRules[i].mark
    case None => DefaultIcon
  }

  /** `getChoiceIcon` returns the icon of the first keyword group the choice
      contains, and the arrow when none matches. */
  lemma IconFollowsRules(text: string)
    ensures GetChoiceIcon(text) == IconByRules(text)
  {
    if IncludesAny(text, FightWords) { FirstMatchIs(IconRules, text, 0); }
    else if IncludesAny(text, FleeWords) { FirstMatchIs(IconRules, text, 1); }
    else if IncludesAny(text, EnterWords) { FirstMatchIs(IconRules, text, 2); }
    else if IncludesAny(text, ReturnWords) { FirstMatchIs(IconRules, text, 3); }
    else { IconMiddleRules(text); }
  }

  lemma IconMiddleRules(text: string)
    requires !IncludesAny(text, FightWords) && !IncludesAny(text, FleeWords)
    requires !IncludesAny(text, EnterWords) && !IncludesAny(text, ReturnWords)
    ensures GetChoiceIcon(text) == IconByRules(text)
  {
    if IncludesAny(text, RestWords) { FirstMatchIs(IconRules, text, 4); }
    else if IncludesAny(text, ShopWords) { FirstMatchIs(IconRules, text, 5); }
    else if IncludesAny(text, LeaveWords) { FirstMatchIs(IconRules, text, 6); }
    else { IconLaterRules(text); }
  }

  lemma IconLaterRules(text: string)
    requires !IncludesAny(text, FightWords) && !IncludesAny(text, FleeWords)
    requires !IncludesAny(text, EnterWords) && !IncludesAny(text, ReturnWords)
    requires !IncludesAny(text, RestWords) && !IncludesAny(text, ShopWords)
    requires !IncludesAny(text, LeaveWords)
    ensures GetChoiceIcon(text) == IconByRules(text)
  {
    if IncludesAny(text, LeftWords) { FirstMatchIs(IconRules, text, 7); }
    else if IncludesAny(text, RightWords) { FirstMatchIs(IconRules, text, 8); }
    else if IncludesAny(text, OutsideWords) { FirstMatchIs(IconRules, text, 9); }
    else { NoneMatches(IconRules, text); }
  }

  const Bom: char := '\U{FEFF}'

  /** The constructor's strip: drop the first character when it is U+FEFF. */
  function StripBom(s: string): (r: string)
    ensures |s| > 0 && s[0] == Bom ==> r == s[1..]
    ensures !(|s| > 0 && s[0] == Bom) ==> r == s
  {
    if |s| > 0 && s[0] == Bom then s[1..] else s
  }

  /** Stripping undoes exactly one prepended mark, and a second mark survives. */
  lemma StripBomInvertsPrepend(s: string)
    ensures StripBom([Bom] + s) == s
    ensures StripBom([Bom, Bom] + s) == [Bom] + s
  {
    assert ([Bom] + s)[1..] == s;
    assert ([Bom, Bom] + s)[1..] == [Bom] + s;
  }

  /** The choice check of `showChoices`: `parseInt(answer) - 1` is used when
      it indexes a current choice; `None` stands for NaN, which fails both
      comparisons. */
  function ChoiceIndex(parsed: Option<int>, count: nat): (r: Option<nat>)
    ensures r.Some? <==> parsed.Some? && 1 <= parsed.value <= count
    ensures r.Some? ==> r.value == parsed.value - 1 && r.value < count
  {
    match parsed
    case None => None
    case Some(n) => if 0 <= n - 1 < count then Some(n - 1) else None
  }

  /** `showChoices` asks again until an answer is accepted: the accepted
      index and how many answers it took, or None if none was accepted. */
  function ShowChoices(answers: seq<Option<int>>, count: nat): (r: Option<(nat, nat)>)
    ensures r.Some? ==> r.value.0 < count && 1 <= r.value.1 <= |answers|
    ensures r.Some? ==> ChoiceIndex(answers[r.value.1 - 1], count) == Some(r.value.0)
    ensures r.Some? ==> forall j :: 0 <= j < r.value.1 - 1 ==> ChoiceIndex(answers[j], count).None?
    ensures r.None? ==> forall j :: 0 <= j < |answers| ==> ChoiceIndex(answers[j], count).None?
    decreases |answers|
  {
    if |answers| == 0 then None
    else
      match ChoiceIndex(answers[0], count)
      case Some(i) => Some((i, 1))
      case None =>
        match ShowChoices(answers[1..], count)
        case None => None
        case Some(p) => Some((p.0, p.1 + 1))
  }
}

=== FILE: save_system.dfy ===
/** The save-slot store of `save_system.py`.

    The directory of `save_slot_<n>.json` files is a map from slot number to
    what the slot's file holds: a readable record, or a file that exists but
    cannot be read back (a write that failed half-way, a corrupt file). The
    timestamp and the outcome of each file-system call are inputs. */
module SaveSystem {
  import opened Basics

  /** The schema tag every record carries. */
  const Version: string := "1.0"

  /** The `player` object of a record: the thirteen saved fields. */
  datatype PlayerData = PlayerData(
    name: string, level: int, exp: int, expToNext: int,
    hp: int, maxHp: int, mp: int, maxMp: int,
    attack: int, defense: int,
    items: map<string, int>,
    totalBattles: int, totalVictories: int)

  datatype SaveRecord = SaveRecord(version: string, saveDate: string, player: PlayerData)

  /** What a slot's file holds once it exists. */
  datatype SlotFile = Stored(record: SaveRecord) | Unreadable

  /** Slot number to file; a missing key is a file that does not exist. */
  type Store = map<int, SlotFile>

  /** How the attempt to write a slot ended: written, failed before the file
      was opened (nothing touched), or failed after `open(.., 'w')` had
      truncated it (left unreadable). */
  datatype WriteOutcome = WriteOk | FailedBeforeOpen | FailedWhileWriting

  /** The summary row `get_save_info` returns. */
  datatype SaveInfo = SaveInfo(slot: int, name: string, level: int, saveDate: string,
                               totalBattles: int, totalVictories: int)

  /** `save_game(player, slot)`: overwrite the slot unconditionally; True only
      when the write went through. */
  function SaveGame(store: Store, player: PlayerData, slot: int, saveDate: string,
                    io: WriteOutcome): (r: (bool, Store))
    ensures r.0 <==> io == WriteOk
    ensures r.0 ==> slot in r.1 && r.1[slot] == Stored(SaveRecord(Version, saveDate, player))
    ensures io == FailedBeforeOpen ==> r.1 == store
    ensures forall k :: k != slot ==> (k in r.1 <==> k in store)
    ensures forall k :: k != slot && k in store ==> r.1[k] == store[k]
  {
    match io
    case WriteOk => (true, store[slot := Stored(SaveRecord(Version, saveDate, player))])
    case FailedBeforeOpen => (false, store)
    case FailedWhileWriting => (false, store[slot := Unreadable])
  }

  /** `load_game(slot)`: the saved player object, or None for an empty or
      unreadable slot. */
  function LoadGame(store: Store, slot: int): (r: Option<PlayerData>)
    ensures slot !in store ==> r == None
    ensures r.Some? <==> slot in store && store[slot].Stored?
  {
    if slot in store then
      match store[slot]
      case Stored(rec) => Some(rec.player)
      case Unreadable => None
    else None
  }

  /** `get_save_info(slot)`: a summary of the slot, or None when it is empty
      or unreadable. */
  function GetSaveInfo(store: Store, slot: int): (r: Option<SaveInfo>)
    ensures slot !in store ==> r == None
    ensures r.Some? <==> slot in store && store[slot].Stored?
    ensures r.Some? ==> r.value.slot == slot && r.value.saveDate == store[slot].record.saveDate
  {
    if slot in store then
      match store[slot]
      case Stored(rec) =>
        Some(SaveInfo(slot, rec.player.name, rec.player.level, rec.saveDate,
                      rec.player.totalBattles, rec.player.totalVictories))
      case Unreadable => None
    else None
  }

  /** `list_saves(max_slots)`: the summary of slots 1..max_slots, in slot order. */
  function ListSaves(store: Store, maxSlots: int): (r: seq<Option<SaveInfo>>)
    ensures |r| == if maxSlots < 0 then 0 else maxSlots
    ensures forall i :: 0 <= i < |r| ==> r[i] == GetSaveInfo(store, i + 1)
  {
    if maxSlots <= 0 then []
    else seq(maxSlots, i requires 0 <= i < maxSlots => GetSaveInfo(store, i + 1))
  }

  /** `delete_save(slot)`: True iff the slot's file existed and was removed;
      `unlinkOk` is whether the removal itself succeeded. */
  function DeleteSave(store: Store, slot: int, unlinkOk: bool): (r: (bool, Store))
    ensures r.0 <==> slot in store && unlinkOk
    ensures r.0 ==> r.1 == store - {slot}
    ensures !r.0 ==> r.1 == store
  {
    if slot in store && unlinkOk then (true, store - {slot}) else (false, store)
  }

  /** Save then load of the same slot gives back every saved field. */
  lemma SaveThenLoad(store: Store, player: PlayerData, slot: int, saveDate: string)
    ensures LoadGame(SaveGame(store, player, slot, saveDate, WriteOk).1, slot) == Some(player)
  {
  }

  /** Saving or deleting one slot leaves what every other slot loads and lists. */
  lemma OtherSlotsUntouched(store: Store, player: PlayerData, slot: int, other: int,
                            saveDate: string, io: WriteOutcome, unlinkOk: bool)
    requires other != slot
    ensures LoadGame(SaveGame(store, player, slot, saveDate, io).1, other) == LoadGame(store, other)
    ensures GetSaveInfo(SaveGame(store, player, slot, saveDate, io).1, other) == GetSaveInfo(store, other)
    ensures LoadGame(DeleteSave(store, slot, unlinkOk).1, other) == LoadGame(store, other)
    ensures GetSaveInfo(DeleteSave(store, slot, unlinkOk).1, other) == GetSaveInfo(store, other)
  {
  }

  /** A failed save never leaves a loadable record behind in its slot, and a
      save cut short after opening leaves nothing loadable. */
  lemma FailedSaveLoads(store: Store, player: PlayerData, slot: int, saveDate: string)
    ensures LoadGame(SaveGame(store, player, slot, saveDate, FailedBeforeOpen).1, slot)
            == LoadGame(store, slot)
    ensures LoadGame(SaveGame(store, player, slot, saveDate, FailedWhileWriting).1, slot) == None
  {
  }

  /** After a successful delete the slot is empty. */
  lemma DeleteThenLoad(store: Store, slot: int)
    ensures LoadGame(DeleteSave(store, slot, true).1, slot) == None
    ensures GetSaveInfo(DeleteSave(store, slot, true).1, slot) == None
  {
  }

  /** The summary is a projection of what loads: present exactly when the slot
      loads, carrying the loaded player's name, level and battle record. */
  lemma InfoProjectsLoad(store: Store, slot: int)
    ensures GetSaveInfo(store, slot).Some? <==> LoadGame(store, slot).Some?
    ensures LoadGame(store, slot).Some? ==>
              var p := LoadGame(store, slot).value;
              var i := GetSaveInfo(store, slot).value;
              i.name == p.name && i.level == p.level &&
              i.totalBattles == p.totalBattles && i.totalVictories == p.totalVictories
  {
  }

  /** The summary of a freshly saved slot carries the save date it was given. */
  lemma SaveThenInfo(store: Store, player: PlayerData, slot: int, saveDate: string)
    ensures GetSaveInfo(SaveGame(store, player, slot, saveDate, WriteOk).1, slot)
            == Some(SaveInfo(slot, player.name, player.level, saveDate,
                             player.totalBattles, player.totalVictories))
  {
  }
}

=== FILE: ui.dfy ===
/** The choice rules of `ui.py`: which spells, items and slots each menu
    offers, and what the menu returns for the line the player types.

    The prompts are Rich's `Prompt.ask` / `IntPrompt.ask` with a fixed list of
    choices: a typed answer outside the list makes the prompt ask again, and
    an empty line gives the default when there is one. Each menu function
    here takes one typed line and says what the prompt does with it. */
module Ui {
  import opened Basics
  import opened Characters
  import SaveSystem

  /** One line read at a prompt. Rich compares the raw line with "" before it
      strips anything: `Blank` is that exactly empty line, which gives the
      default. Any other line is `Typed` with its surrounding whitespace
      stripped, so a line of only spaces is `Typed("")`, which no choice list
      holds and every prompt refuses. */
  datatype Reply = Blank | Typed(text: string)

  /** What a selection menu does with one reply: ask again, go back (the
      `"0"` entry, returned as None), or hand over the chosen entry. */
  datatype Pick<+T> = Retry | Back | Chosen(value: T)

  /** A prompt restricted to `choices`: the answer, or None when the prompt
      asks again. */
  function Accept(choices: seq<string>, default: Option<string>, reply: Reply): (r: Option<string>)
    ensures reply.Typed? ==> (r.Some? <==> reply.text in choices)
    ensures reply.Typed? && r.Some? ==> r.value == reply.text
    ensures reply.Blank? ==> r == default
  {
    match reply
    case Blank => default
    case Typed(t) => if t in choices then Some(t) else None
  }

  // ---------------------------------------------------------------- actions

  const ActionChoices: seq<string> := ["1", "2", "3", "4"]

  /** `show_action_menu`: attack, magic, item or flee; an empty line attacks. */
  function ShowActionMenu(reply: Reply): (r: Option<string>)
    ensures r.Some? ==> r.value in ActionChoices
    ensures reply == Blank ==> r == Some("1")
    ensures reply.Typed? ==> (r.Some? <==> reply.text in ActionChoices)
    ensures reply.Typed? && r.Some? ==> r.value == reply.text
  {
    Accept(ActionChoices, Some("1"), reply)
  }

  // ----------------------------------------------------------------- spells

  /** A row of the spell table; the multiplier is in half-units (see Combat). */
  datatype Spell = Spell(number: string, name: string, cost: int, effect: string, halves: nat)

  const HealSpellName: string := "ヒール"

  const Fire: Spell := Spell("1", "ファイア", 10, "敵に炎属性ダメージ", 3)
  const HealSpell: Spell := Spell("2", HealSpellName, 15, "HPを30回復", 0)
  const Thunder: Spell := Spell("3", "サンダー", 20, "敵に雷属性ダメージ", 4)

  const MagicList: seq<Spell> := [Fire, HealSpell, Thunder]

  /** The numbers of the spells the player can pay for, in table order. */
  function AffordableNumbers(spells: seq<Spell>, mp: int): (r: seq<string>)
    ensures forall i :: 0 <= i < |spells| && spells[i].cost <= mp ==> spells[i].number in r
    ensures forall c :: c in r ==> exists i :: 0 <= i < |spells| && spells[i].number == c && spells[i].cost <= mp
    decreases |spells|
  {
    if |spells| == 0 then []
    else
      var rest := AffordableNumbers(spells[1..], mp);
      assert forall i :: 1 <= i < |spells| ==> spells[i] == spells[1..][i - 1];
      (if spells[0].cost <= mp then [spells[0].number] else []) + rest
  }

  /** The answers the spell prompt accepts: `"0"` and every affordable spell. */
  function MagicChoices(mp: int): (cs: seq<string>)
    ensures |cs| > 0 && cs[0] == "0"
  {
    ["0"] + AffordableNumbers(MagicList, mp)
  }

  /** `show_magic_menu`: `"0"` goes back; an offered number returns that row
      of the table. There is no default, so an empty line asks again. */
  function ShowMagicMenu(mp: int, reply: Reply): (r: Pick<Spell>)
    ensures r == Back <==> reply == Typed("0")
    ensures r.Chosen? ==> r.value in MagicList && r.value.cost <= mp && reply == Typed(r.value.number)
    ensures r == Retry <==> reply == Blank || reply.text !in MagicChoices(mp)
  {
    match Accept(MagicChoices(mp), None, reply)
    case None => Retry
    case Some(c) =>
      if c == "0" then Back
      else
        assert c in AffordableNumbers(MagicList, mp);
        assert c == "1" || c == "2" || c == "3";
        Chosen(MagicList[DigitsValue(c) - 1])
  }

  /** Spell k is offered, and picked by typing its number, exactly when the
      player's mp covers its cost. */
  lemma SpellOfferedIffAffordable(mp: int, k: nat)
    requires k < |MagicList|
    ensures MagicList[k].number in MagicChoices(mp) <==> MagicList[k].cost <= mp
    ensures ShowMagicMenu(mp, Typed(MagicList[k].number)) == Chosen(MagicList[k])
            <==> MagicList[k].cost <= mp
  {
    var cs := AffordableNumbers(MagicList, mp);
    if MagicList[k].number in MagicChoices(mp) {
      assert MagicList[k].number in cs;
      var i :| 0 <= i < |MagicList| && MagicList[i].number == MagicList[k].number && MagicList[i].cost <= mp;
      assert i == k;
    }
  }

  // ------------------------------------------------------------------ items

  datatype ItemRow = ItemRow(number: string, name: string, effect: string)

  const ItemList: seq<ItemRow> := [ItemRow("1", Potion, "HP 50回復"), ItemRow("2", Ether, "MP 20回復")]

  /** The numbers of the items the player holds at least one of, in table order. */
  function HeldNumbers(rows: seq<ItemRow>, items: Items): (r: seq<string>)
    ensures forall i :: 0 <= i < |rows| && Count(items, rows[i].name) > 0 ==> rows[i].number in r
    ensures forall c :: c in r ==> exists i :: 0 <= i < |rows| && rows[i].number == c && Count(items, rows[i].name) > 0
    decreases |rows|
  {
    if |rows| == 0 then []
    else
      var rest := HeldNumbers(rows[1..], items);
      assert forall i :: 1 <= i < |rows| ==> rows[i] == rows[1..][i - 1];
      (if Count(items, rows[0].name) > 0 then [rows[0].number] else []) + rest
  }

  function ItemChoices(items: Items): (cs: seq<string>)
    ensures |cs| > 0 && cs[0] == "0"
  {
    ["0"] + HeldNumbers(ItemList, items)
  }

  /** Whether the item menu prompts at all: some item has a positive count. */
  predicate AnyItemUsable(items: Items) {
    |ItemChoices(items)| > 1
  }

  /** `show_item_menu`: with nothing usable it returns None without
      prompting; otherwise `"0"` goes back and an offered number returns that
      item's name. */
  function ShowItemMenu(items: Items, reply: Reply): (r: Pick<string>)
    ensures !AnyItemUsable(items) ==> r == Back
    ensures AnyItemUsable(items) ==> (r == Back <==> reply == Typed("0"))
    ensures r.Chosen? ==> Count(items, r.value) > 0 && (r.value == Potion || r.value == Ether)
    ensures AnyItemUsable(items) ==> (r == Retry <==> reply == Blank || reply.text !in ItemChoices(items))
    ensures r.Chosen? ==> exists k :: 0 <= k < |ItemList| && reply == Typed(ItemList[k].number) && r.value == ItemList[k].name
  {
    if !AnyItemUsable(items) then Back
    else
      match Accept(ItemChoices(items), None, reply)
      case None => Retry
      case Some(c) =>
        if c == "0" then Back
        else
          assert c in HeldNumbers(ItemList, items);
          assert c == "1" || c == "2";
          Chosen(ItemList[DigitsValue(c) - 1].name)
  }

  /** The menu prompts exactly when one of the two items has a positive count,
      and item k is picked by its number exactly when the player holds one. */
  lemma ItemOfferedIffHeld(items: Items, k: nat)
    requires k < |ItemList|
    ensures AnyItemUsable(items) <==> Count(items, Potion) > 0 || Count(items, Ether) > 0
    ensures ShowItemMenu(items, Typed(ItemList[k].number)) == Chosen(ItemList[k].name)
            <==> Count(items, ItemList[k].name) > 0
  {
    var cs := HeldNumbers(ItemList, items);
    if |cs| > 0 {
      assert cs[0] in cs;
      var i :| 0 <= i < |ItemList| && ItemList[i].number == cs[0] && Count(items, ItemList[i].name) > 0;
    }
    if Count(items, Potion) > 0 || Count(items, Ether) > 0 {
      assert ItemList[0].number in cs || ItemList[1].number in cs;
    }
    if ItemList[k].number in cs {
      var i :| 0 <= i < |ItemList| && ItemList[i].number == ItemList[k].number && Count(items, ItemList[i].name) > 0;
      assert i == k;
    }
  }

  // ------------------------------------------------------------ save slots

  /** `[str(i) for i in range(0, max_slots + 1)]`. */
  function SlotChoices(maxSlots: int): (cs: seq<string>)
    ensures |cs| == if maxSlots < 0 then 0 else maxSlots + 1
    ensures forall i :: 0 <= i < |cs| ==> cs[i] == NatToString(i)
  {
    if maxSlots < 0 then [] else seq(maxSlots + 1, i requires 0 <= i => NatToString(i))
  }

  /** `show_save_menu`: an IntPrompt over slots 0..max_slots with default 1;
      0 means cancel. None means the prompt asks again. */
  function ShowSaveMenu(maxSlots: int, reply: Reply): (r: Option<int>)
    ensures reply == Blank ==> r == Some(1)
    ensures reply.Typed? && r.Some? ==> 0 <= r.value <= maxSlots && reply.text == NatToString(r.value)
  {
    match reply
    case Blank => Some(1)
    case Typed(t) =>
      if t in SlotChoices(maxSlots) then
        var i :| 0 <= i < |SlotChoices(maxSlots)| && SlotChoices(maxSlots)[i] == t;
        DigitsValueOfNatToString(i);
        Some(DigitsValue(t))
      else None
  }

  /** The save menu accepts a typed slot number exactly when it lies in 0..max_slots. */
  lemma SaveMenuAcceptsRange(maxSlots: int, n: nat)
    ensures ShowSaveMenu(maxSlots, Typed(NatToString(n))) == (if n <= maxSlots then Some(n) else None)
  {
    var cs := SlotChoices(maxSlots);
    DigitsValueOfNatToString(n);
    if n <= maxSlots {
      assert cs[n] == NatToString(n);
    } else if NatToString(n) in cs {
      var i :| 0 <= i < |cs| && cs[i] == NatToString(n);
      NatToStringInjective(i, n);
    }
  }

  /** The slot numbers, counted from 1, whose summary is present, in order. */
  function LoadableSlots(saves: seq<Option<SaveSystem.SaveInfo>>): (r: seq<nat>)
    ensures forall k :: k in r <==> 1 <= k <= |saves| && saves[k - 1].Some?
    decreases |saves|
  {
    if |saves| == 0 then []
    else
      var front := saves[..|saves| - 1];
      assert forall k :: 0 <= k < |front| ==> front[k] == saves[k];
      LoadableSlots(front) + (if saves[|saves| - 1].Some? then [|saves|] else [])
  }

  /** The slot among `slots` whose rendering is `t`, if any. */
  function FindSlot(slots: seq<nat>, t: string): (r: Option<nat>)
    ensures r.Some? ==> r.value in slots && NatToString(r.value) == t
    ensures r.None? ==> forall k :: k in slots ==> NatToString(k) != t
    decreases |slots|
  {
    if |slots| == 0 then None
    else if NatToString(slots[0]) == t then Some(slots[0])
    else FindSlot(slots[1..], t)
  }

  /** The slots the load menu lists as loadable. */
  function LoadMenuSlots(store: SaveSystem.Store, maxSlots: int): (slots: seq<nat>)
    ensures forall k :: k in slots <==> 1 <= k <= maxSlots && SaveSystem.GetSaveInfo(store, k).Some?
  {
    LoadableSlots(SaveSystem.ListSaves(store, maxSlots))
  }

  /** `show_load_menu`: with no loadable slot it returns 0 without prompting;
      otherwise an IntPrompt over `"0"` and the loadable slots, defaulting to 1
      when slot 1 is loadable and to 0 otherwise. */
  function ShowLoadMenu(store: SaveSystem.Store, maxSlots: int, reply: Reply): (r: Option<int>)
    ensures r.Some? ==> r.value >= 0
    ensures r.Some? && r.value != 0 ==> r.value <= maxSlots && SaveSystem.GetSaveInfo(store, r.value).Some?
    ensures (forall k :: 1 <= k <= maxSlots ==> SaveSystem.GetSaveInfo(store, k).None?) ==> r == Some(0)
    ensures reply == Typed("0") ==> r == Some(0)
    ensures reply == Blank && (exists k :: 1 <= k <= maxSlots && SaveSystem.GetSaveInfo(store, k).Some?) ==>
              r == Some(if 1 <= maxSlots && SaveSystem.GetSaveInfo(store, 1).Some? then 1 else 0)
    ensures reply.Typed? && r.Some? && r.value != 0 ==> reply.text == NatToString(r.value)
    ensures reply.Typed? && r == Some(0) ==>
              reply.text == "0" || forall k :: 1 <= k <= maxSlots ==> SaveSystem.GetSaveInfo(store, k).None?
  {
    var slots := LoadMenuSlots(store, maxSlots);
    if |slots| == 0 then Some(0)
    else
      assert slots[0] in slots;
      match reply
      case Blank => if FindSlot(slots, "1").Some? then Some(1) else Some(0)
      case Typed(t) =>
        if t == "0" then Some(0)
        else
          match FindSlot(slots, t)
          case None => None
          case Some(k) =>
            DigitsValueOfNatToString(k);
            Some(DigitsValue(t))
  }

  /** Typing slot k at the load prompt loads it exactly when the slot is in
      range and its summary is present. */
  lemma LoadMenuOffersLoadable(store: SaveSystem.Store, maxSlots: int, k: nat)
    requires k >= 1
    ensures ShowLoadMenu(store, maxSlots, Typed(NatToString(k))) == Some(k)
            <==> k <= maxSlots && SaveSystem.GetSaveInfo(store, k).Some?
  {
    var slots := LoadMenuSlots(store, maxSlots);
    if k <= maxSlots && SaveSystem.GetSaveInfo(store, k).Some? {
      assert k in slots;
    }
    DigitsValueOfNatToString(k);
    assert NatToString(k) != "0";
    var f := FindSlot(slots, NatToString(k));
    if f.Some? {
      NatToStringInjective(f.value, k);
    }
  }
}
